=== FILE: README.md ===
# AzCopy wrapper: output parsing and job results in Dafny

This project models the core of `py-azcopy-wrapper`. The wrapper builds an
`azcopy cp` command from two endpoints and a set of options. It then reads
the lines the tool prints and keeps four things from them:

- the last progress percentage;
- a summary buffer, which starts after the `Job … summary` header;
- the last `AuthenticationFailed` line;
- the text after `Final Job Status:`.

From the summary it reads named integer counters. A terminal rule then does
one of two things:

- it returns the job record, marked completed;
- or it raises with an extended error message.

When the tool exits with a failure, the error is classified through the SAS
token's session expiry. A separate function checks whether a SAS token has
expired.

Modules, one per concern:

| module | file | models |
|---|---|---|
| `Wrappers` | wrappers.dfy | `Option` and `Result` (raising becomes `Failure`) |
| `Strings` | strings.dfy | `in`, `startswith`, `strip`, `lstrip`, `split`, `int()` and `"{}".format` on ASCII digits |
| `Query` | query.dfy | the part of `urllib.parse.parse_qs` the token checks use |
| `Timestamps` | timestamps.dfy | naive date-times, `strptime`/`strftime` for `%Y-%m-%dT%H:%M:%SZ`, the `<` comparison |
| `Utilities` | utilities.dfy | endpoints and how they render, copy options, the `AzJobInfo` record |
| `Summary` | summary.dfy | `get_property_value` and the copy and sync summary readers |
| `SasValidation` | sas_token_validation.dfy | `is_sas_token_session_expired` |
| `OutputParser` | output_parser.dfy | the line loop of `copy` |
| `Client` | client.dfy | `check_token`, the failure handler, the terminal rule, `copy` |

Some inputs are passed in as parameters:

- The tool's run is a `RunOutput`: the lines it printed, then its exit code.
  A non-zero code raises only after every line has been read, as the runner
  does.
- The current time is a `DateTime` parameter. `CheckToken` reads it as
  naive local time. `IsSessionExpired` reads it as UTC.

Three points of the code's behaviour that are easy to misread:

- The summary header test is `line.startswith("Job") and "summary" in line`.
  It is case-sensitive and does not trim the line.
- `check_token` compares the naive local clock against the expiry, which is
  UTC, and keeps microseconds. `is_sas_token_session_expired` compares UTC
  whole seconds. The two checks therefore see the same instant only on a
  host whose local time is UTC.
- The summary buffer is the verbatim concatenation of lines. Removing
  parentheses happens only in the attribute names of the sync reader, never
  in the buffer.

## Model

| member | source | states |
|---|---|---|
| Utilities.ResourceUri | azcopy_wrapper/azcopy_utilities.py:53-54 | the container endpoint starts with `https://` and ends with `/` |
| Utilities.Render | azcopy_wrapper/azcopy_utilities.py:56-118 | rendering fails exactly for a wildcard local source with an empty path (`path[-1]`). A remote endpoint renders to the resource URI and path, and always ends in `"?" + token`, even for an empty token. Without a wildcard, a local endpoint renders to its path unchanged and a remote one to `uri + path + "?" + token` |
| Utilities.LocalWildcardSuffix | azcopy_wrapper/azcopy_utilities.py:103-118 | a wildcard local source ends in `/*`. A path ending in `/` gets `*`, any other path gets `/*`, and `//*` appears only if the path ended in `//` |
| Utilities.WildcardOnlyForSource | azcopy_wrapper/azcopy_utilities.py:63-73 | the wildcard flag has no effect on an endpoint whose role is not `source`. On a remote source it inserts exactly one `*`, between the path and the `?` that introduces the token |
| Utilities.DefaultRemote | azcopy_wrapper/azcopy_utilities.py:35-51 | a remote endpoint built with every argument defaulted has role `destination`, no wildcard, and empty account, container, path and token |
| Utilities.DefaultLocal | azcopy_wrapper/azcopy_utilities.py:92-100 | a local endpoint built with every argument defaulted has role `source`, no wildcard and an empty path |
| Utilities.DefaultEndpoints | azcopy_wrapper/azcopy_utilities.py:35-118 | the two defaulted endpoints have different roles and render without failing: the local one to its empty path, the remote one to the bare endpoint and `?` |
| Utilities.DefaultCopyOptions | azcopy_wrapper/azcopy_utilities.py:132-142 | defaulted options overwrite nothing, are not recursive, skip MD5 and exclude no path |
| Utilities.DefaultOptionsKeepExisting | azcopy_wrapper/azcopy_utilities.py:132-168 | with every option defaulted, the flag list is exactly `--overwrite false` |
| Utilities.OptionsList | azcopy_wrapper/azcopy_utilities.py:144-168 | the flag list's length is the sum of its four optional parts. `--recursive` comes first exactly when recursive is set. A non-empty exclude path ends the list as `--exclude-path p` |
| Utilities.OptionsRoundTrip | azcopy_wrapper/azcopy_utilities.py:144-168 | the fixed-order flag list determines the options it came from: reading it back gives them again |
| Utilities.FreshJobInfo | azcopy_wrapper/azcopy_utilities.py:188-217 | a fresh record has progress 0, empty messages, every counter 0 and is not completed |
| Summary.FirstMatch | azcopy_wrapper/azcopy_summary.py:9 | the search returns the leftmost position at or after `from` where `key: <digits>\n` matches, or none when no position matches |
| Summary.PropertyValue | azcopy_wrapper/azcopy_summary.py:5-23 | the lookup is 0 when `key: <digits>\n` matches nowhere. For a digit-free key it is the value of the digits of the leftmost match |
| Summary.MatchedNumber | azcopy_wrapper/azcopy_client.py:102-114 | the second search, `\d+` over the matched text, finds exactly the matched digit run when the key holds no digit |
| Summary.NoNewlineReadsZero | azcopy_wrapper/azcopy_summary.py:9 | a buffer with no newline reads 0 for every label, even when a label's digits end the buffer |
| Summary.LabelledLineReads | azcopy_wrapper/azcopy_summary.py:9-19 | a label at the start of a line reads as its digits, whatever follows, when no earlier line holds `key: `. Earlier lines may hold other labels and their colons, so the first occurrence in a real summary decides |
| Summary.EarlierLinesDoNotMatch | azcopy_wrapper/azcopy_summary.py:9 | when the text before a line does not hold `key: `, no match of `key: ` starts inside it, since one crossing its final newline would hold a newline |
| Summary.OtherLabelReadsZero | azcopy_wrapper/azcopy_summary.py:9-19 | a line for one label is read as 0 for any key that is not a suffix of that label |
| Summary.CopyLineReadsOnlyItsOwnLabel | azcopy_wrapper/azcopy_summary.py:33-47 | no copy label ends with another, so a line written for one copy counter never feeds a different one |
| Summary.SetCopyCount | azcopy_wrapper/azcopy_summary.py:45-50 | `setattr` with a label's attribute changes that counter only, and every other field keeps its value |
| Summary.ApplyCopyLabels | azcopy_wrapper/azcopy_summary.py:43-50 | after the loop, each listed counter holds its label's value, an unlisted counter keeps its value, and nothing else changes |
| Summary.CopySummaryInfo | azcopy_wrapper/azcopy_summary.py:26-56 | each copy counter holds the value of its own label and the byte count that of `TotalBytesTransferred`. Progress, messages and `completed` are unchanged |
| Summary.CopySummaryResetsCounters | azcopy_wrapper/azcopy_client.py:122-150 | the counters held before extraction do not influence the result. An empty summary resets every counter to 0 |
| Summary.DuplicateLabelHasNoEffect | azcopy_wrapper/azcopy_summary.py:33-41 | the label list names "Number of File Transfers" twice; dropping the second entry gives the same record |
| Summary.SetSyncCount | azcopy_wrapper/azcopy_summary.py:77-86 | `setattr` with a sync label's attribute changes that counter only |
| Summary.ApplySyncLabels | azcopy_wrapper/azcopy_summary.py:77-86 | after the sync loop, each listed counter holds its label's value, an unlisted counter keeps its value, and nothing else changes |
| Summary.SyncSummaryInfo | azcopy_wrapper/azcopy_summary.py:59-108 | exactly the ten sync counters are set, each from its own label, and no non-counter field changes |
| Query.Field | azcopy_wrapper/sas_token_validation.py:10 | a query piece contributes a pair exactly when it holds `=` and a non-empty value after the first `=`. The pair splits the piece at that `=` |
| Query.ValuesOfJoin | azcopy_wrapper/sas_token_validation.py:10-18 | the values of `a&b` are those of `a` followed by those of `b`, so earlier occurrences come first |
| Query.SinglePair | azcopy_wrapper/sas_token_validation.py:10-13 | a lone `key=value` piece yields exactly `[value]` |
| Timestamps.Truncate | azcopy_wrapper/sas_token_validation.py:20-30 | truncation drops only the microseconds, and the truncated instant is never later than the original |
| Timestamps.ParseTimestamp | azcopy_wrapper/sas_token_validation.py:22-24 | every text the model accepts is a valid whole-second date-time whose canonical rendering is that text; this is stricter than `strptime` (see Left out) |
| Timestamps.FormatParseRoundTrip | azcopy_wrapper/sas_token_validation.py:22-24 | parsing the rendering of a valid whole-second date-time gives it back |
| SasValidation.SessionExpiry | azcopy_wrapper/sas_token_validation.py:10-26 | the missing-expiry error occurs exactly when the token has no non-empty `se` value. A success renders back to the first `se` value. A malformed value is one that no date-time renders to |
| SasValidation.IsSessionExpired | azcopy_wrapper/sas_token_validation.py:6-35 | errors are exactly those of the expiry lookup. On success, the token is expired iff the expiry is before now and now is not inside the expiry's own second |
| SasValidation.SecondsCompare | azcopy_wrapper/sas_token_validation.py:20-35 | against a whole-second expiry, comparing the truncated clock equals comparing the clock itself, except within the expiry's second |
| SasValidation.BeforeIsStrictTotal | azcopy_wrapper/sas_token_validation.py:32 | the date-time comparison is irreflexive, asymmetric and total on distinct values |
| SasValidation.LeadingQuestionMarkIgnored | azcopy_wrapper/sas_token_validation.py:10 | a leading `?` does not change the verdict |
| SasValidation.ExpiryOfToken | azcopy_wrapper/sas_token_validation.py:10-26 | a token starting `se=<rendered e>&` has expiry `e`, whatever follows, including further `se` values |
| SasValidation.LeadingValue | azcopy_wrapper/sas_token_validation.py:10-18 | a leading `se=<f>` piece, with `f` free of `&`, puts `f` first among the token's `se` values, ahead of those of the rest |
| SasValidation.ExpiryAfterOtherParameters | azcopy_wrapper/sas_token_validation.py:10-26 | the same holds when `se` follows other parameters with no `se` value of their own, as in an issued `sv=…&sp=…&se=…&sig=…` token |
| SasValidation.FirstExpiryDecides | azcopy_wrapper/sas_token_validation.py:13-35 | such a token is expired iff `e` is before the clock truncated to whole seconds |
| SasValidation.EmptyTokenHasNoExpiry | azcopy_wrapper/sas_token_validation.py:13-16 | the empty token fails with the missing-expiry error |
| SasValidation.ExpiryBoundary | azcopy_wrapper/sas_token_validation.py:28-35 | at any instant inside the expiry's own second the token is not expired. From the next second on, it is |
| OutputParser.MatchPercent | azcopy_wrapper/azcopy_client.py:194-195 | a match gives two non-empty digit runs, and the line starts with `<whole>.<fraction> %,` |
| OutputParser.PercentLineMatches | azcopy_wrapper/azcopy_client.py:194-202 | every line starting with `<digits>.<digits> %,` matches with exactly those digit runs |
| OutputParser.PercentGuardRedundant | azcopy_wrapper/azcopy_client.py:192-197 | the `"%" in line` pre-check never rejects a line the anchored pattern accepts |
| OutputParser.AuthFailureOf | azcopy_wrapper/azcopy_client.py:214-215 | a line writes the error message exactly when it holds `AuthenticationFailed`, and what it writes is the whole line |
| OutputParser.StatusOf | azcopy_wrapper/azcopy_client.py:217-218 | a line writes the status exactly when it holds `Final Job Status:`. The status holds no colon and is the stripped tail after the line's last colon |
| OutputParser.StatusIsTextAfterLastColon | azcopy_wrapper/azcopy_client.py:217-218 | for a status line ending in `:` plus colon-free text, the status is that text stripped |
| OutputParser.ScanLines | azcopy_wrapper/azcopy_client.py:178-218 | the loop leaves every counter at 0 and the job not completed. The summary is unlocked iff some line is a header |
| OutputParser.ScanFieldsAreLastWrites | azcopy_wrapper/azcopy_client.py:187-218 | progress, error message and final status each equal the value from the last line that writes them, or the initial value when no line does |
| OutputParser.LastPercentLineWins | azcopy_wrapper/azcopy_client.py:192-202 | the last line that starts with `<digits>.<digits> %,` sets the progress, and every other line leaves it unchanged |
| OutputParser.SummaryAfterFirstHeader | azcopy_wrapper/azcopy_client.py:182-212 | the buffer is the concatenation of every line after the first header. The header itself is excluded, and later header-like lines are included |
| OutputParser.NoHeaderNoSummary | azcopy_wrapper/azcopy_client.py:182-212 | with no header line the buffer stays empty |
| Client.CheckToken | azcopy_wrapper/azcopy_client.py:69-93 | one of three outcomes: the missing-expiry message iff no `se` value; the expired message iff the expiry is before now; `""` iff it is not. A malformed `se` raises |
| Client.ExpiryChecksAgree | azcopy_wrapper/azcopy_client.py:86-93 | on a host whose local time is UTC, so that both checks read the same `now`: at a whole-second clock, `check_token` reports expiry iff `is_sas_token_session_expired` does |
| Client.ExpiryChecksDisagreeWithinSecond | azcopy_wrapper/azcopy_client.py:90-91 | on a host whose local time is UTC: inside the expiry's own second, `check_token` already reports expiry while the whole-second check does not |
| Client.Command | azcopy_wrapper/azcopy_client.py:169-175 | the command is `[exe, "cp", str(src), str(dest)]` followed by the option flags. It fails exactly when an endpoint fails to render |
| Client.TokenOf | azcopy_wrapper/azcopy_client.py:223-228 | the token checked after a failed run is the destination's when it is remote, else the source's when that is remote, else empty |
| Client.ProcessErrorText | azcopy_wrapper/azcopy_client.py:235 | `str(e)` of the runner's error: `Command '<list>' ` followed by `returned non-zero exit status N.` for a status N >= 0, or by `died with signal N.` for a run killed by signal N |
| Client.OnRunFailure | azcopy_wrapper/azcopy_client.py:220-237 | the handler raises exactly when the token check raises, and then with `TokenCheckFailed` carrying the token check's own error. Otherwise the error message becomes the token message when it is non-empty, else the process error, and the job is not completed |
| Client.Finish | azcopy_wrapper/azcopy_client.py:248-262 | the result is a return exactly for status `Completed` or `CompletedWithSkipped`, and then the record is marked completed and otherwise unchanged. Every raise extends the error message |
| Client.FailureMessageNamesCount | azcopy_wrapper/azcopy_client.py:253-262 | with failed transfers, the message ends in `; Tranfers failed = ` and the count's canonical decimal: digits with no leading zero that read back as the count, as `"{}".format(n)` writes it. With none, it ends in `; Error while transferring data` |
| Client.Copy | azcopy_wrapper/azcopy_client.py:152-264 | equal role strings fail before anything is built. A return is always completed with a completed status. Its progress and status come from the scan, and its counters come from the scanned summary |
| Client.SuccessIffCompletedStatus | azcopy_wrapper/azcopy_client.py:248-252 | once the command is built and the token check does not raise, `copy` returns iff the final status is completed, even when the tool exited with a failure |
| Client.FailedRunFinishes | azcopy_wrapper/azcopy_client.py:220-262 | after a failed run whose token check does not raise, `copy` ends in the terminal rule applied to the handled record with the summary read into it |
| Client.CopyRaisesOnRenderFailure | azcopy_wrapper/azcopy_client.py:169-175 | when an endpoint fails to render (a wildcard local source with an empty path, `path[-1]` at azcopy_utilities.py:109), `copy` raises that error before the tool runs |
| Client.CopyRaisesOnTokenCheckFailure | azcopy_wrapper/azcopy_client.py:220-230 | after a failed run, a token check that raises on a malformed `se` value makes `copy` raise `TokenCheckFailed` with that error, whatever the tool printed |
| Client.CleanRunFinishes | azcopy_wrapper/azcopy_client.py:178-264 | after a clean exit no token is checked: `copy` ends in the terminal rule applied to the scanned record, with the summary read into it |
| Client.CleanRunReportsFailedCount | azcopy_wrapper/azcopy_client.py:214-262 | a clean exit with an incomplete status and `n > 0` failed transfers raises with the last `AuthenticationFailed` line (or `""`) followed by `; Tranfers failed = ` and `n` in decimal |
| Client.FailedTransfersNamed | azcopy_wrapper/azcopy_client.py:248-262 | with `n > 0` failed transfers in the summary, an incomplete job raises with its error message followed by `n` in decimal |
| Client.SummaryFailedCount | azcopy_wrapper/azcopy_client.py:122-150 | reading the summary sets the failed-transfer count to the value of its label |
| Client.FinishNamesCount | azcopy_wrapper/azcopy_client.py:253-258 | the terminal rule's raise for `n > 0` failed transfers is the error message, `; Tranfers failed = ` and `n` in decimal |
| Client.FinishNotesNoFailures | azcopy_wrapper/azcopy_client.py:259-262 | the terminal rule's raise with no failed transfer is the error message followed by `; Error while transferring data` |
| Client.NoFailedTransfersNote | azcopy_wrapper/azcopy_client.py:248-262 | with no failed transfer in the summary, an incomplete job raises with its error message followed by `; Error while transferring data` |
| Client.ExpiredTokenReported | azcopy_wrapper/azcopy_client.py:220-262 | a failed run towards a remote destination, whose token's first `se` value parses to an expiry before `now`, raises `SAS Token is expired; Error while transferring data` when no transfer failed |
| Client.LocalCopyReportsMissingExpiry | azcopy_wrapper/azcopy_client.py:223-233 | a failed run between two local endpoints always reports the missing-expiry message, never the process error |
| Client.UsableTokenReportsProcessError | azcopy_wrapper/azcopy_client.py:230-235 | a failed run towards a remote destination, whose token's first `se` value parses to an expiry not before `now`, reports the process error text |

## Left out

- Running the tool: `AzClient.execute_command`, `utils/execute_command.py`, environment variables, `os.makedirs` and pipe reading are process I/O. The run is an input: its lines and its exit code.
- `print` calls: they are logging only.
- The command-line driver `download_to_local_location.py` and `setup.py`: they hold no logic of the core.
- Float conversion of the progress figure: `Percent` keeps the two digit runs that `float()` would read.
- `parse_qs` details: percent-decoding, `+` to space, and `;` separators. A token is plain `k=v&…` text.
- Timestamps.ParseTimestamp: accepts only the canonical rendering, which is stricter than `strptime`. Python also accepts one-digit month, day, hour, minute and second fields, a space-padded day such as ` 1`, and lower-case `t` and `z`, because `_strptime` matches case-insensitively. The model reports such an `se` value as malformed, so `CheckToken` fails with `MalformedSessionExpiry`, and `copy` raises `TokenCheckFailed`, where the source returns a verdict. Like the model, Python rejects surrounding whitespace and trailing text.
- `mktime`, time zones and daylight saving: both clocks are naive `DateTime` values, compared field by field.
- Summary.PropertyValue: reads a digit run of any length as its number. On CPython 3.11 and later, and on the 2022 security releases of 3.7 to 3.10 (3.10.7, 3.9.14, 3.8.14, 3.7.14), `int()` raises for a run of more than 4300 digits; the source catches that and reads 0. The package allows any Python from 3.6, so the limit depends on the interpreter and is not modelled.
- Unicode `\d`: digits are ASCII. The labels are literal text; none holds a regex metacharacter or a digit.
- Client.ProcessErrorText: the list inside the message is each item in single quotes, without Python's `repr` escaping. A signal-terminated run reads "died with signal N" instead of naming the signal.
- Summary.SetCopyCount: the attribute each label names, `label.lower().replace(" ", "_")`, is written out as a counter enumeration instead of being computed from the label text.
- Summary.SetSyncCount: the same applies to the sync labels' attribute names.
- Summary.SyncSummaryInfo: the sync record and `AzCopyJobInfo` are imported by `azcopy_summary.py` but are not defined in `azcopy_utilities.py`. `SyncJobInfo` is this model's assumption of that record: the ten counters plus the `AzJobInfo` message fields.
- No sync command: the source shows no orchestrator that calls the sync reader.

=== FILE: client.dfy ===
/** `AzClient.copy`: build the command, scan what the tool prints, classify
    a failed run through the SAS token, read the summary, and apply the
    terminal rule. The tool's run is given as the lines it printed and its
    exit code; the clock is a parameter, read as naive local time. */
module Client {
  import opened Wrappers
  import opened Strings
  import opened Timestamps
  import opened Utilities
  import opened Summary
  import opened SasValidation
  import opened OutputParser

  // ---------------------------------------------------------- check_token

  const MissingExpiryMessage: string := "Cannot find session expiry date in the SAS Token"
  const ExpiredMessage: string := "SAS Token is expired"

  /** `check_token(token)` at local time `now`: a message for a missing or
      passed expiry, `""` for a usable token. An `se` value `strptime`
      rejects raises, and that error is the failure here. Unlike
      `is_sas_token_session_expired`, the comparison keeps microseconds. */
  function CheckToken(token: string, now: DateTime): (r: Result<string, SasError>)
    ensures r.Failure? <==> SessionExpiry(token).Failure? && SessionExpiry(token).error.MalformedSessionExpiry?
    ensures r.Failure? ==> r.error == SessionExpiry(token).error
    ensures r == Success(MissingExpiryMessage) <==> ExpiryValues(token) == []
    ensures r == Success(ExpiredMessage) <==>
      SessionExpiry(token).Success? && Before(SessionExpiry(token).value, now)
    ensures r == Success("") <==>
      SessionExpiry(token).Success? && !Before(SessionExpiry(token).value, now)
  {
    match SessionExpiry(token)
    case Failure(e) => if e.MissingSessionExpiry? then Success(MissingExpiryMessage) else Failure(e)
    case Success(expiry) => if Before(expiry, now) then Success(ExpiredMessage) else Success("")
  }

  /** The two expiry checks read different clocks: `check_token` the naive
      local time, `is_sas_token_session_expired` UTC. Both see the same
      date-time `now` only on a host whose local time is UTC, and there,
      at a whole-second instant, they agree. */
  lemma ExpiryChecksAgree(token: string, now: DateTime)
    requires now.microsecond == 0 && SessionExpiry(token).Success?
    ensures CheckToken(token, now) == Success(ExpiredMessage) <==> IsSessionExpired(token, now) == Success(true)
  {
    assert Truncate(now) == now;
  }

  /** On a host whose local time is UTC, the two checks disagree within the
      expiry's own second: `check_token` already reports the token expired
      while `is_sas_token_session_expired` does not. */
  lemma ExpiryChecksDisagreeWithinSecond(token: string, now: DateTime)
    requires SessionExpiry(token).Success? && Truncate(now) == SessionExpiry(token).value
    requires now.microsecond > 0
    ensures CheckToken(token, now) == Success(ExpiredMessage)
    ensures IsSessionExpired(token, now) == Success(false)
  {
    BeforeIsStrictTotal(SessionExpiry(token).value, SessionExpiry(token).value);
  }

  // -------------------------------------------------------------- copying

  /** What the runner reports: every line the tool printed, then its exit
      status; a non-zero status raises once every line is consumed. */
  datatype RunOutput = RunOutput(lines: seq<string>, exitCode: int)

  /** The ways `copy` raises. */
  datatype CopyError =
    | SameLocationType
    | EndpointRenderFailed(renderError: RenderError)
    | TokenCheckFailed(sasError: SasError)
    | TransferIncomplete(message: string)

  /** The argument list `[exe, "cp", str(src), str(dest)] + options`; the
      source endpoint is rendered first. */
  function Command(exe: string, src: Location, dest: Location, options: CopyOptions): (r: Result<seq<string>, CopyError>)
    ensures r.Failure? <==> Render(src).Failure? || Render(dest).Failure?
    ensures r.Failure? ==> r.error == EndpointRenderFailed(PathIndexOutOfRange)
    ensures r.Success? ==>
      && |r.value| == 4 + |OptionsList(options)|
      && r.value[..4] == [exe, "cp", Render(src).value, Render(dest).value]
      && r.value[4..] == OptionsList(options)
  {
    match (Render(src), Render(dest))
    case (Success(s), Success(d)) =>
      var r := [exe, "cp", s, d] + OptionsList(options);
      assert r[..4] == [exe, "cp", s, d];
      Success(r)
    case (Failure(e), _) => Failure(EndpointRenderFailed(e))
    case (_, Failure(e)) => Failure(EndpointRenderFailed(e))
  }

  /** The token the failure handler checks: the destination's when it is
      remote, else the source's when that is remote, else none. */
  function TokenOf(src: Location, dest: Location): (t: string)
    ensures dest.Remote? ==> t == dest.sasToken
    ensures dest.Local? && src.Remote? ==> t == src.sasToken
    ensures dest.Local? && src.Local? ==> t == ""
  {
    if dest.Remote? then dest.sasToken
    else if src.Remote? then src.sasToken
    else ""
  }

  /** Python's `repr` of a list of strings, each quoted with `'`. */
  function ListRepr(items: seq<string>): string {
    "[" + QuotedItems(items) + "]"
  }

  function QuotedItems(items: seq<string>): string {
    if |items| == 0 then ""
    else if |items| == 1 then "'" + items[0] + "'"
    else "'" + items[0] + "', " + QuotedItems(items[1..])
  }

  /** `str(CalledProcessError(code, cmd))` for a non-zero status. */
  function ProcessErrorText(cmd: seq<string>, code: int): (r: string)
    ensures StartsWith(r, "Command '" + ListRepr(cmd) + "' ")
    ensures code >= 0 ==> EndsWith(r, "returned non-zero exit status " + NatToString(code) + ".")
    ensures code < 0 ==> EndsWith(r, "died with signal " + NatToString(-code) + ".")
  {
    var head := "Command '" + ListRepr(cmd) + "' ";
    var tail := if code >= 0 then "returned non-zero exit status " + NatToString(code) + "."
                else "died with signal " + NatToString(-code) + ".";
    assert (head + tail)[..|head|] == head;
    assert (head + tail)[|head + tail| - |tail|..] == tail;
    head + tail
  }

  /** The `except` branch after the runner raised: the token's message when
      it has one longer than a character, else the process error, and the
      job marked not completed. */
  function OnRunFailure(info: JobInfo, token: string, cmd: seq<string>, code: int, now: DateTime): (r: Result<JobInfo, CopyError>)
    ensures r.Failure? <==> CheckToken(token, now).Failure?
    ensures r.Failure? ==> r.error == TokenCheckFailed(CheckToken(token, now).error)
    ensures r.Success? ==> r.value == info.(
      errorMsg := if CheckToken(token, now).value != "" then CheckToken(token, now).value
                  else ProcessErrorText(cmd, code),
      completed := false)
  {
    match CheckToken(token, now)
    case Failure(e) => Failure(TokenCheckFailed(e))
    case Success(status) =>
      Success(info.(errorMsg := if |status| > 1 then status else ProcessErrorText(cmd, code), completed := false))
  }

  /** The two statuses that count as success. */
  predicate IsCompletedStatus(status: string) {
    status == "Completed" || status == "CompletedWithSkipped"
  }

  /** The terminal rule: a completed status returns the record marked
      completed, whatever else happened; otherwise `copy` raises with the
      error message extended by the failure count, or by a generic note
      when no transfer failed. */
  function Finish(info: JobInfo): (r: Result<JobInfo, CopyError>)
    ensures r.Success? <==> IsCompletedStatus(info.finalJobStatusMsg)
    ensures r.Success? ==> r.value.completed && r.value.(completed := info.completed) == info
    ensures r.Success? ==> forall c :: CopyCount(r.value, c) == CopyCount(info, c)
    ensures r.Failure? ==> r.error.TransferIncomplete? && StartsWith(r.error.message, info.errorMsg)
  {
    if IsCompletedStatus(info.finalJobStatusMsg) then Success(info.(completed := true))
    else
      var suffix :=
        if info.numberOfTransfersFailed > 0 then "; Tranfers failed = " + NatToString(info.numberOfTransfersFailed)
        else "; Error while transferring data";
      assert (info.errorMsg + suffix)[..|info.errorMsg|] == info.errorMsg;
      Failure(TransferIncomplete(info.errorMsg + suffix))
  }

  /** The failure message names the number of failed transfers, in digits
      that read back as that number; with none failed it carries the generic
      note. */
  lemma FailureMessageNamesCount(info: JobInfo)
    requires !IsCompletedStatus(info.finalJobStatusMsg)
    ensures info.numberOfTransfersFailed > 0 ==>
      exists digits :: AllDigits(digits) && DigitsValue(digits) == info.numberOfTransfersFailed
        && |digits| > 0 && digits[0] != '0'
        && Finish(info) == Failure(TransferIncomplete(info.errorMsg + "; Tranfers failed = " + digits))
    ensures info.numberOfTransfersFailed <= 0 ==>
      Finish(info) == Failure(TransferIncomplete(info.errorMsg + "; Error while transferring data"))
  {
    if info.numberOfTransfersFailed > 0 {
      var digits := NatToString(info.numberOfTransfersFailed);
      assert info.errorMsg + ("; Tranfers failed = " + digits) == info.errorMsg + "; Tranfers failed = " + digits;
    }
  }

  /** `copy(src, dest, options)` run with executable `exe`, against the
      runner's output `run`, at local time `now`. */
  function Copy(exe: string, src: Location, dest: Location, options: CopyOptions,
                run: RunOutput, now: DateTime): (r: Result<JobInfo, CopyError>)
    ensures src.locationType == dest.locationType ==> r == Failure(SameLocationType)
    ensures r.Success? ==> r.value.completed && IsCompletedStatus(r.value.finalJobStatusMsg)
    ensures r.Success? ==>
      && r.value.finalJobStatusMsg == ScanLines(run.lines).info.finalJobStatusMsg
      && r.value.percentComplete == ScanLines(run.lines).info.percentComplete
      && (forall c :: CopyCount(r.value, c) == PropertyValue(CopyLabel(c), ScanLines(run.lines).summary))
      && r.value.totalBytesTransferred == PropertyValue(TotalBytesLabel, ScanLines(run.lines).summary)
  {
    if src.locationType == dest.locationType then Failure(SameLocationType)
    else
      var cmd := Command(exe, src, dest, options);
      if cmd.Failure? then Failure(cmd.error)
      else
        var scan := ScanLines(run.lines);
        var handled :=
          if run.exitCode != 0 then OnRunFailure(scan.info, TokenOf(src, dest), cmd.value, run.exitCode, now)
          else Success(scan.info);
        if handled.Failure? then Failure(handled.error)
        else
          assert handled.value.percentComplete == scan.info.percentComplete;
          assert handled.value.finalJobStatusMsg == scan.info.finalJobStatusMsg;
          Finish(CopySummaryInfo(handled.value, scan.summary))
  }

  // ------------------------------------------------------------ outcomes

  /** Once the command is built and the token check (if any) does not
      raise, `copy` returns exactly when the final status is `Completed` or
      `CompletedWithSkipped`, whether or not the tool exited cleanly. */
  lemma SuccessIffCompletedStatus(exe: string, src: Location, dest: Location, options: CopyOptions,
                                  run: RunOutput, now: DateTime)
    requires src.locationType != dest.locationType && Command(exe, src, dest, options).Success?
    requires run.exitCode == 0 || CheckToken(TokenOf(src, dest), now).Success?
    ensures Copy(exe, src, dest, options, run, now).Success?
        <==> IsCompletedStatus(ScanLines(run.lines).info.finalJobStatusMsg)
  {
  }

  /** A failed run whose token check does not raise ends in the terminal
      rule applied to the handled record with the summary read into it. */
  lemma FailedRunFinishes(exe: string, src: Location, dest: Location, options: CopyOptions,
                          run: RunOutput, now: DateTime)
    requires src.locationType != dest.locationType && Command(exe, src, dest, options).Success?
    requires run.exitCode != 0 && CheckToken(TokenOf(src, dest), now).Success?
    ensures OnRunFailure(ScanLines(run.lines).info, TokenOf(src, dest),
                         Command(exe, src, dest, options).value, run.exitCode, now).Success?
    ensures Copy(exe, src, dest, options, run, now)
         == Finish(CopySummaryInfo(
              OnRunFailure(ScanLines(run.lines).info, TokenOf(src, dest),
                           Command(exe, src, dest, options).value, run.exitCode, now).value,
              ScanLines(run.lines).summary))
  {
  }

  /** An endpoint that fails to render makes `copy` raise that error before
      the tool runs. */
  lemma CopyRaisesOnRenderFailure(exe: string, src: Location, dest: Location, options: CopyOptions,
                                  run: RunOutput, now: DateTime)
    requires src.locationType != dest.locationType && Command(exe, src, dest, options).Failure?
    ensures Copy(exe, src, dest, options, run, now) == Failure(Command(exe, src, dest, options).error)
    ensures Copy(exe, src, dest, options, run, now) == Failure(EndpointRenderFailed(PathIndexOutOfRange))
  {
  }

  /** After a failed run, a token check that raises (a malformed `se`
      value) makes `copy` raise that error, whatever the tool printed. */
  lemma CopyRaisesOnTokenCheckFailure(exe: string, src: Location, dest: Location, options: CopyOptions,
                                      run: RunOutput, now: DateTime)
    requires src.locationType != dest.locationType && Command(exe, src, dest, options).Success?
    requires run.exitCode != 0 && CheckToken(TokenOf(src, dest), now).Failure?
    ensures Copy(exe, src, dest, options, run, now)
         == Failure(TokenCheckFailed(CheckToken(TokenOf(src, dest), now).error))
  {
  }

  /** After a clean exit no token is checked: the terminal rule applies to
      the scanned record, whose error message is still the last
      `AuthenticationFailed` line, with the summary read into it. */
  lemma CleanRunFinishes(exe: string, src: Location, dest: Location, options: CopyOptions,
                         run: RunOutput, now: DateTime)
    requires src.locationType != dest.locationType && Command(exe, src, dest, options).Success?
    requires run.exitCode == 0
    ensures Copy(exe, src, dest, options, run, now)
         == Finish(CopySummaryInfo(ScanLines(run.lines).info, ScanLines(run.lines).summary))
  {
  }

  /** A clean exit whose status is not completed, with `n > 0` failed
      transfers in the summary, raises with the last `AuthenticationFailed`
      line (or `""` when there is none) followed by the count in decimal. */
  lemma CleanRunReportsFailedCount(exe: string, src: Location, dest: Location, options: CopyOptions,
                                   run: RunOutput, now: DateTime, n: nat)
    requires src.locationType != dest.locationType && Command(exe, src, dest, options).Success?
    requires run.exitCode == 0
    requires !IsCompletedStatus(ScanLines(run.lines).info.finalJobStatusMsg)
    requires PropertyValue(CopyLabel(TransfersFailed), ScanLines(run.lines).summary) == n && n > 0
    ensures Copy(exe, src, dest, options, run, now)
         == Failure(TransferIncomplete(LastOf(run.lines, AuthFailureOf, "")
                                       + "; Tranfers failed = " + NatToString(n)))
  {
    var scan := ScanLines(run.lines);
    CleanRunFinishes(exe, src, dest, options, run, now);
    FailedTransfersNamed(scan.info, scan.summary, n);
    ScanFieldsAreLastWrites(run.lines);
  }

  /** With `n > 0` failed transfers in the summary, an incomplete job raises
      with its error message followed by `n` in decimal. */
  lemma FailedTransfersNamed(handled: JobInfo, summary: string, n: nat)
    requires !IsCompletedStatus(handled.finalJobStatusMsg)
    requires PropertyValue(CopyLabel(TransfersFailed), summary) == n && n > 0
    ensures Finish(CopySummaryInfo(handled, summary))
         == Failure(TransferIncomplete(handled.errorMsg + "; Tranfers failed = " + NatToString(n)))
  {
    SummaryFailedCount(handled, summary, n);
    FinishNamesCount(CopySummaryInfo(handled, summary), n);
  }

  /** Reading the summary sets the failed-transfer count to its label's
      value. */
  lemma SummaryFailedCount(handled: JobInfo, summary: string, n: nat)
    requires PropertyValue(CopyLabel(TransfersFailed), summary) == n
    ensures CopySummaryInfo(handled, summary).numberOfTransfersFailed == n
  {
    assert CopyCount(CopySummaryInfo(handled, summary), TransfersFailed) == n;
  }

  /** The terminal rule's raise for `n > 0` failed transfers names `n` in
      decimal after the error message. */
  lemma FinishNamesCount(info: JobInfo, n: nat)
    requires !IsCompletedStatus(info.finalJobStatusMsg) && info.numberOfTransfersFailed == n && n > 0
    ensures Finish(info) == Failure(TransferIncomplete(info.errorMsg + "; Tranfers failed = " + NatToString(n)))
  {
    assert info.errorMsg + ("; Tranfers failed = " + NatToString(n))
        == info.errorMsg + "; Tranfers failed = " + NatToString(n);
  }

  /** A failed run towards a remote destination whose token expired before
      `now` reports the expiry, followed by the generic note when the summary
      counts no failed transfer. */
  lemma ExpiredTokenReported(exe: string, src: Location, dest: Location, options: CopyOptions,
                             run: RunOutput, now: DateTime, e: DateTime)
    requires src.locationType != dest.locationType && Command(exe, src, dest, options).Success?
    requires run.exitCode != 0
    requires dest.Remote? && SessionExpiry(dest.sasToken) == Success(e) && Before(e, now)
    requires !IsCompletedStatus(ScanLines(run.lines).info.finalJobStatusMsg)
    requires PropertyValue(CopyLabel(TransfersFailed), ScanLines(run.lines).summary) == 0
    ensures Copy(exe, src, dest, options, run, now)
         == Failure(TransferIncomplete(ExpiredMessage + "; Error while transferring data"))
  {
    var scan := ScanLines(run.lines);
    var cmd := Command(exe, src, dest, options).value;
    assert CheckToken(TokenOf(src, dest), now) == Success(ExpiredMessage);
    FailedRunFinishes(exe, src, dest, options, run, now);
    var handled := OnRunFailure(scan.info, TokenOf(src, dest), cmd, run.exitCode, now).value;
    assert handled.errorMsg == ExpiredMessage;
    NoFailedTransfersNote(handled, scan.summary);
  }

  /** With no failed transfer in the summary, an incomplete job raises with
      its error message and the generic note. */
  lemma NoFailedTransfersNote(handled: JobInfo, summary: string)
    requires !IsCompletedStatus(handled.finalJobStatusMsg)
    requires PropertyValue(CopyLabel(TransfersFailed), summary) == 0
    ensures Finish(CopySummaryInfo(handled, summary))
         == Failure(TransferIncomplete(handled.errorMsg + "; Error while transferring data"))
  {
    SummaryFailedCount(handled, summary, 0);
    FinishNotesNoFailures(CopySummaryInfo(handled, summary));
  }

  /** The terminal rule's raise with no failed transfer carries the generic
      note after the error message. */
  lemma FinishNotesNoFailures(info: JobInfo)
    requires !IsCompletedStatus(info.finalJobStatusMsg) && info.numberOfTransfersFailed <= 0
    ensures Finish(info) == Failure(TransferIncomplete(info.errorMsg + "; Error while transferring data"))
  {
  }

  /** A failed run between two local endpoints has no token to check, so
      its message always starts with the missing-expiry text, never with the
      process error. */
  lemma LocalCopyReportsMissingExpiry(exe: string, src: Location, dest: Location, options: CopyOptions,
                                      run: RunOutput, now: DateTime)
    requires src.Local? && dest.Local? && src.locationType != dest.locationType
    requires Command(exe, src, dest, options).Success?
    requires run.exitCode != 0
    ensures Copy(exe, src, dest, options, run, now).Success?
        <==> IsCompletedStatus(ScanLines(run.lines).info.finalJobStatusMsg)
    ensures Copy(exe, src, dest, options, run, now).Failure? ==>
      && Copy(exe, src, dest, options, run, now).error.TransferIncomplete?
      && StartsWith(Copy(exe, src, dest, options, run, now).error.message, MissingExpiryMessage)
  {
    EmptyTokenHasNoExpiry();
    assert CheckToken("", now) == Success(MissingExpiryMessage);
  }

  /** A failed run with a usable token reports the process error. */
  lemma UsableTokenReportsProcessError(exe: string, src: Location, dest: Location, options: CopyOptions,
                                       run: RunOutput, now: DateTime, e: DateTime)
    requires src.locationType != dest.locationType && Command(exe, src, dest, options).Success?
    requires run.exitCode != 0
    requires dest.Remote? && SessionExpiry(dest.sasToken) == Success(e) && !Before(e, now)
    requires !IsCompletedStatus(ScanLines(run.lines).info.finalJobStatusMsg)
    ensures Copy(exe, src, dest, options, run, now).Failure?
    ensures Copy(exe, src, dest, options, run, now).error.TransferIncomplete?
    ensures StartsWith(Copy(exe, src, dest, options, run, now).error.message,
                       ProcessErrorText(Command(exe, src, dest, options).value, run.exitCode))
  {
  }
}

=== FILE: output_parser.dfy ===
/** The line loop of `AzClient.copy`: what the wrapper takes from each line
    the tool prints, in order. A scan keeps the job record, the summary
    buffer and whether the summary header has been seen. */
module OutputParser {
  import opened Wrappers
  import opened Strings
  import opened Utilities

  // ------------------------------------------------------- single lines

  /** `re.match(r"(?P<percent_complete>\d+\.\d+) %,", line)`: the match is
      anchored at the start of the line, and because a greedy `\d+` is
      followed by a non-digit in both places, each digit run is the whole run
      at its position. */
  function MatchPercent(line: string): (r: Option<Percent>)
    ensures r.Some? ==>
      && |r.value.whole| > 0 && AllDigits(r.value.whole)
      && |r.value.fraction| > 0 && AllDigits(r.value.fraction)
      && StartsWith(line, r.value.whole + "." + r.value.fraction + " %,")
  {
    var n := DigitRun(line, 0);
    if n == 0 || n == |line| || line[n] != '.' then None
    else
      var m := DigitRun(line, n + 1);
      var e := n + 1 + m;
      if m == 0 || !OccursAt(line, " %,", e) then None
      else
        var p := Percent(line[..n], line[n + 1..e]);
        assert line[..e + 3] == p.whole + "." + p.fraction + " %,";
        Some(p)
  }

  /** Every line that starts with `<digits>.<digits> %,` matches, with
      exactly those digit runs. */
  lemma PercentLineMatches(whole: string, fraction: string, rest: string)
    requires |whole| > 0 && AllDigits(whole) && |fraction| > 0 && AllDigits(fraction)
    ensures MatchPercent(whole + "." + fraction + " %," + rest) == Some(Percent(whole, fraction))
  {
    PercentLineShape(whole, fraction, rest);
    PercentPartsMatch(whole + "." + fraction + " %," + rest, whole, fraction);
  }

  lemma PercentPartsMatch(line: string, whole: string, fraction: string)
    requires |whole| > 0 && AllDigits(whole) && |fraction| > 0 && AllDigits(fraction)
    requires var n, e := |whole|, |whole| + 1 + |fraction|;
      && e + 3 <= |line|
      && line[..n] == whole && line[n] == '.'
      && line[n + 1..e] == fraction && line[e] == ' '
      && line[e..e + 3] == " %,"
    ensures MatchPercent(line) == Some(Percent(whole, fraction))
  {
    var n := |whole|;
    assert line[0..n] == whole;
    DigitRunOf(line, 0, whole);
    DigitRunOf(line, n + 1, fraction);
    MatchPercentAt(line, n, |fraction|);
  }

  /** The positions of the parts of a progress line. */
  lemma PercentLineShape(whole: string, fraction: string, rest: string)
    ensures var line := whole + "." + fraction + " %," + rest;
      var n, e := |whole|, |whole| + 1 + |fraction|;
      && e + 3 <= |line|
      && line[..n] == whole && line[n] == '.'
      && line[n + 1..e] == fraction && line[e] == ' '
      && line[e..e + 3] == " %,"
  {
    var line := whole + "." + fraction + " %," + rest;
    var n, e := |whole|, |whole| + 1 + |fraction|;
    assert line == whole + ("." + (fraction + (" %," + rest)));
    var tail := line[n + 1..];
    assert tail == fraction + (" %," + rest);
    assert tail[..|fraction|] == fraction;
  }

  /** `MatchPercent` in terms of the two digit-run lengths. */
  lemma MatchPercentAt(line: string, n: nat, m: nat)
    requires 0 < n < |line| && line[n] == '.' && DigitRun(line, 0) == n
    requires 0 < m && n + 1 + m <= |line| && DigitRun(line, n + 1) == m
    requires OccursAt(line, " %,", n + 1 + m)
    ensures MatchPercent(line) == Some(Percent(line[..n], line[n + 1..n + 1 + m]))
  {
    var p := MatchPercent(line);
    assert p.Some?;
    assert p.value.whole == line[..n];
  }

  /** The progress a line reports: only lines holding `%` are tried. */
  function PercentOf(line: string): Option<Percent> {
    if '%' in line then MatchPercent(line) else None
  }

  /** The `%` pre-check never rejects a line the pattern accepts. */
  lemma PercentGuardRedundant(line: string)
    ensures PercentOf(line) == MatchPercent(line)
  {
    var r := MatchPercent(line);
    if r.Some? {
      var t := r.value.whole + "." + r.value.fraction + " %,";
      assert line[|t| - 2] == t[|t| - 2] == '%';
    }
  }

  /** A line that opens the summary: `startswith("Job")` and holding
      `summary`, both case-sensitive and without trimming. */
  predicate IsHeader(line: string) {
    StartsWith(line, "Job") && Contains(line, "summary")
  }

  /** A line holding `AuthenticationFailed` becomes the error message, the
      whole line. */
  function AuthFailureOf(line: string): (r: Option<string>)
    ensures r.Some? <==> Contains(line, "AuthenticationFailed")
    ensures r.Some? ==> r.value == line
  {
    if Contains(line, "AuthenticationFailed") then Some(line) else None
  }

  /** `line.split(":")[-1].strip()` for a line holding `Final Job Status:`. */
  function StatusOf(line: string): (r: Option<string>)
    ensures r.Some? <==> Contains(line, "Final Job Status:")
    ensures r.Some? ==> ':' !in r.value && exists i :: Framed(AfterLast(line, ':'), r.value, i)
    ensures r.Some? && |r.value| > 0 ==> !IsSpace(r.value[0]) && !IsSpace(r.value[|r.value| - 1])
  {
    if Contains(line, "Final Job Status:") then Some(Strip(AfterLast(line, ':'))) else None
  }

  /** The status of a line is the stripped text after its last colon. */
  lemma {:induction false} StatusIsTextAfterLastColon(line: string, text: string)
    requires Contains(line, "Final Job Status:") && EndsWith(line, ":" + text) && ':' !in text
    ensures StatusOf(line) == Some(Strip(text))
  {
    AfterLastOf(line[..|line| - |text| - 1], text, ':');
    assert line == line[..|line| - |text| - 1] + [':'] + text;
  }

  lemma {:induction false} AfterLastOf(s: string, t: string, c: char)
    requires c !in t
    ensures AfterLast(s + [c] + t, c) == t
    decreases |t|
  {
    if |t| > 0 {
      var u := s + [c] + t;
      assert u[..|u| - 1] == s + [c] + t[..|t| - 1];
      AfterLastOf(s, t[..|t| - 1], c);
      assert t == t[..|t| - 1] + [t[|t| - 1]];
    }
  }

  // ------------------------------------------------------------ the scan

  /** The loop's state: the job record, the summary text, and
      `unlock_summary`. */
  datatype Scan = Scan(info: JobInfo, summary: string, unlocked: bool)

  /** One iteration of the loop, in source order: progress, summary append,
      header check, authentication failure, final status. */
  function Step(s: Scan, line: string): Scan {
    var pct := PercentOf(line);
    var auth := AuthFailureOf(line);
    var status := StatusOf(line);
    var info := s.info.(
      percentComplete := if pct.Some? then pct.value else s.info.percentComplete,
      errorMsg := if auth.Some? then auth.value else s.info.errorMsg,
      finalJobStatusMsg := if status.Some? then status.value else s.info.finalJobStatusMsg);
    Scan(info, if s.unlocked then s.summary + line else s.summary, s.unlocked || IsHeader(line))
  }

  /** The loop over all lines, from a fresh record and an empty summary.
      The loop only writes progress, error and status: the counters stay at
      0 and the job stays not completed. */
  function ScanLines(lines: seq<string>): (r: Scan)
    ensures r.info.(percentComplete := ZeroPercent, errorMsg := "", finalJobStatusMsg := "") == FreshJobInfo()
    ensures r.unlocked <==> exists j :: 0 <= j < |lines| && IsHeader(lines[j])
  {
    if |lines| == 0 then Scan(FreshJobInfo(), "", false)
    else
      var before := ScanLines(lines[..|lines| - 1]);
      var r := Step(before, lines[|lines| - 1]);
      assert forall j :: 0 <= j < |lines| - 1 ==> lines[..|lines| - 1][j] == lines[j];
      r
  }

  // --------------------------------------------------- last write wins

  /** `k` is the last line that `f` picks out. */
  predicate LastHit<T>(lines: seq<string>, f: string -> Option<T>, k: int) {
    && 0 <= k < |lines| && f(lines[k]).Some?
    && forall j :: k < j < |lines| ==> f(lines[j]).None?
  }

  /** The value `f` gives on the last line it picks out, or `default` when
      it picks out none. */
  function LastOf<T>(lines: seq<string>, f: string -> Option<T>, default: T): (r: T)
    ensures (forall j :: 0 <= j < |lines| ==> f(lines[j]).None?) ==> r == default
    ensures forall k :: LastHit(lines, f, k) ==> r == f(lines[k]).value
  {
    if |lines| == 0 then default
    else
      var last := lines[|lines| - 1];
      var init := lines[..|lines| - 1];
      if f(last).Some? then
        assert forall k :: LastHit(lines, f, k) ==> k == |lines| - 1;
        f(last).value
      else
        LastHitOfInit(lines, f);
        LastOf(init, f, default)
  }

  /** When the last line is not picked out, the last hit lies among the
      lines before it. */
  lemma LastHitOfInit<T>(lines: seq<string>, f: string -> Option<T>)
    requires |lines| > 0 && f(lines[|lines| - 1]).None?
    ensures forall k :: LastHit(lines, f, k) ==> LastHit(lines[..|lines| - 1], f, k)
    ensures (forall j :: 0 <= j < |lines| - 1 ==> f(lines[j]).None?) ==>
              forall j :: 0 <= j < |lines| ==> f(lines[j]).None?
  {
    var init := lines[..|lines| - 1];
    assert forall j :: 0 <= j < |init| ==> init[j] == lines[j];
  }

  /** Progress, error message and final status each hold the value of the
      last line that writes them, or their initial value when no line does. */
  lemma {:induction false} ScanFieldsAreLastWrites(lines: seq<string>)
    ensures ScanLines(lines).info.percentComplete == LastOf(lines, PercentOf, ZeroPercent)
    ensures ScanLines(lines).info.errorMsg == LastOf(lines, AuthFailureOf, "")
    ensures ScanLines(lines).info.finalJobStatusMsg == LastOf(lines, StatusOf, "")
  {
    if |lines| > 0 {
      ScanFieldsAreLastWrites(lines[..|lines| - 1]);
    }
  }

  /** The last line that starts with `<digits>.<digits> %,` sets the
      progress; every later line leaves it alone. */
  lemma LastPercentLineWins(lines: seq<string>, k: nat)
    requires k < |lines| && MatchPercent(lines[k]).Some?
    requires forall j :: k < j < |lines| ==> MatchPercent(lines[j]).None?
    ensures ScanLines(lines).info.percentComplete == MatchPercent(lines[k]).value
  {
    ScanFieldsAreLastWrites(lines);
    PercentGuardRedundant(lines[k]);
    forall j | k < j < |lines| ensures PercentOf(lines[j]).None? {
      PercentGuardRedundant(lines[j]);
    }
    assert LastHit(lines, PercentOf, k);
  }

  // -------------------------------------------------------- the summary

  /** `"".join(lines)`. */
  function Concat(lines: seq<string>): string {
    if |lines| == 0 then "" else Concat(lines[..|lines| - 1]) + lines[|lines| - 1]
  }

  /** Once the first header is seen, every later line is appended verbatim,
      later header-like lines included; the header itself is not. */
  lemma {:induction false} SummaryAfterFirstHeader(lines: seq<string>, h: nat)
    requires h < |lines| && IsHeader(lines[h])
    requires forall j :: 0 <= j < h ==> !IsHeader(lines[j])
    ensures ScanLines(lines).summary == Concat(lines[h + 1..])
  {
    if |lines| == h + 1 {
      var init := lines[..h];
      NoHeaderNoSummary(init);
      assert lines[h + 1..] == [];
    } else {
      var init := lines[..|lines| - 1];
      assert init[h] == lines[h];
      SummaryAfterFirstHeader(init, h);
      assert ScanLines(init).unlocked;
      assert lines[h + 1..][..|lines| - h - 2] == init[h + 1..];
    }
  }

  /** With no header line the summary stays empty. */
  lemma {:induction false} NoHeaderNoSummary(lines: seq<string>)
    requires forall j :: 0 <= j < |lines| ==> !IsHeader(lines[j])
    ensures ScanLines(lines).summary == ""
  {
    if |lines| > 0 {
      NoHeaderNoSummary(lines[..|lines| - 1]);
    }
  }
}

=== FILE: query.dfy ===
/** The part of `urllib.parse.parse_qs` the SAS checks depend on: a query is
    split on `&`, each piece at its first `=`, and pieces with no `=` or
    with an empty value are dropped (`keep_blank_values=False`). Percent
    escapes and `+` are kept as they are. */
module Query {
  import opened Wrappers
  import opened Strings

  /** The `(name, value)` pair one `&`-separated piece contributes, or `None`
      when `parse_qsl` drops it. */
  function Field(piece: string): (r: Option<(string, string)>)
    ensures r.Some? ==> piece == r.value.0 + "=" + r.value.1
    ensures r.Some? ==> '=' !in r.value.0 && |r.value.1| > 0
    ensures r.None? <==>
      '=' !in piece || (piece[|piece| - 1] == '=' && '=' !in piece[..|piece| - 1])
  {
    if '=' !in piece then None
    else
      var (name, value) := SplitOnce(piece, '=');
      if |value| == 0 then
        assert piece[..|piece| - 1] == name;
        None
      else
        assert piece[..|piece| - 1][|name|] == '=';
        Some((name, value))
  }

  /** The values, in order, of the pieces whose name is `key`. */
  function ValuesIn(pieces: seq<string>, key: string): seq<string> {
    if |pieces| == 0 then []
    else
      var f := Field(pieces[0]);
      (if f.Some? && f.value.0 == key then [f.value.1] else []) + ValuesIn(pieces[1..], key)
  }

  /** `parse_qs(query).get(key)`, with the empty list standing for `None`. */
  function Values(query: string, key: string): seq<string> {
    ValuesIn(SplitOn(query, '&'), key)
  }

  lemma {:induction false} ValuesInAppend(xs: seq<string>, ys: seq<string>, key: string)
    ensures ValuesIn(xs + ys, key) == ValuesIn(xs, key) + ValuesIn(ys, key)
  {
    if |xs| > 0 {
      assert (xs + ys)[1..] == xs[1..] + ys;
      ValuesInAppend(xs[1..], ys, key);
    } else {
      assert xs + ys == ys;
    }
  }

  /** Splitting distributes over a joining separator. */
  lemma {:induction false} SplitOnAppend(a: string, b: string, c: char)
    ensures SplitOn(a + [c] + b, c) == SplitOn(a, c) + SplitOn(b, c)
  {
    if |a| > 0 {
      assert (a + [c] + b)[1..] == a[1..] + [c] + b;
      SplitOnAppend(a[1..], b, c);
    } else {
      assert a + [c] + b == [c] + b;
      assert ([c] + b)[1..] == b;
    }
  }

  lemma {:induction false} SplitOnAbsent(s: string, c: char)
    requires c !in s
    ensures SplitOn(s, c) == [s]
  {
    if |s| > 0 {
      SplitOnAbsent(s[1..], c);
      assert [s[0]] + s[1..] == s;
    }
  }

  /** The values of a query joined from two parts are those of the first
      part followed by those of the second: earlier occurrences come first. */
  lemma ValuesOfJoin(a: string, b: string, key: string)
    ensures Values(a + "&" + b, key) == Values(a, key) + Values(b, key)
  {
    SplitOnAppend(a, b, '&');
    ValuesInAppend(SplitOn(a, '&'), SplitOn(b, '&'), key);
  }

  /** Splitting once at a character the first part lacks recovers both parts. */
  lemma {:induction false} SplitOnceAt(a: string, b: string, c: char)
    requires c !in a
    ensures SplitOnce(a + [c] + b, c) == (a, b)
  {
    if |a| > 0 {
      assert (a + [c] + b)[1..] == a[1..] + [c] + b;
      SplitOnceAt(a[1..], b, c);
      assert [a[0]] + a[1..] == a;
    }
  }

  /** A lone `key=value` pair yields exactly that value. */
  lemma SinglePair(key: string, value: string)
    requires '&' !in key && '=' !in key
    requires '&' !in value && |value| > 0
    ensures Values(key + "=" + value, key) == [value]
  {
    var piece := key + "=" + value;
    SplitOnAbsent(piece, '&');
    SplitOnceAt(key, value, '=');
    assert ValuesIn([piece], key) == [value] + ValuesIn([], key);
  }
}

=== FILE: sas_token_validation.dfy ===
/** `is_sas_token_session_expired`: the session expiry (`se`) of a SAS token
    against the current time. The clock is a parameter, read as a UTC
    date-time; the comparison works in whole seconds. */
module SasValidation {
  import opened Wrappers
  import opened Strings
  import opened Query
  import opened Timestamps

  /** The two ways the check raises: no `se` parameter, or an `se` value
      `strptime` rejects. */
  datatype SasError = MissingSessionExpiry | MalformedSessionExpiry(text: string)

  /** The `se` values of a token, after every leading `?` is stripped. */
  function ExpiryValues(token: string): seq<string> {
    Values(LStripChar(token, '?'), "se")
  }

  /** The first `se` value parsed as `%Y-%m-%dT%H:%M:%SZ`. A missing
      parameter and a value no date-time renders to are the two errors. */
  function SessionExpiry(token: string): (r: Result<DateTime, SasError>)
    ensures r == Failure(MissingSessionExpiry) <==> ExpiryValues(token) == []
    ensures r.Success? ==>
      Valid(r.value) && r.value.microsecond == 0 && FormatTimestamp(r.value) == ExpiryValues(token)[0]
    ensures r.Failure? && r.error.MalformedSessionExpiry? ==>
      && |ExpiryValues(token)| > 0 && r.error.text == ExpiryValues(token)[0]
      && forall d :: Valid(d) && d.microsecond == 0 ==> FormatTimestamp(d) != r.error.text
  {
    var values := ExpiryValues(token);
    if |values| == 0 then Failure(MissingSessionExpiry)
    else
      match ParseTimestamp(values[0])
      case Some(d) => Success(d)
      case None =>
        assert forall d :: Valid(d) && d.microsecond == 0 ==> FormatTimestamp(d) != values[0] by {
          forall d | Valid(d) && d.microsecond == 0
            ensures FormatTimestamp(d) != values[0]
          {
            FormatParseRoundTrip(d);
          }
        }
        Failure(MalformedSessionExpiry(values[0]))
  }

  /** `is_sas_token_session_expired(token)` at UTC time `nowUtc`: both sides
      go through `mktime(timetuple())`, which drops the fraction of a second,
      and the token is expired when now is strictly later. */
  function IsSessionExpired(token: string, nowUtc: DateTime): (r: Result<bool, SasError>)
    ensures r.Failure? <==> SessionExpiry(token).Failure?
    ensures r.Failure? ==> r.error == SessionExpiry(token).error
    ensures r.Success? && nowUtc.microsecond >= 0 ==>
      (r.value <==> Before(SessionExpiry(token).value, nowUtc) && Truncate(nowUtc) != SessionExpiry(token).value)
  {
    var e := SessionExpiry(token);
    if e.Failure? then Failure(e.error)
    else
      SecondsCompare(e.value, nowUtc);
      Success(Before(e.value, Truncate(nowUtc)))
  }

  /** Against a whole-second instant, comparing the truncated time is
      comparing the time itself, except within the expiry's own second. */
  lemma SecondsCompare(e: DateTime, now: DateTime)
    requires e.microsecond == 0
    ensures now.microsecond >= 0 ==> (Before(e, Truncate(now)) <==> Before(e, now) && Truncate(now) != e)
  {
  }

  /** `Before` is a strict order: irreflexive, asymmetric and total on
      distinct date-times. */
  lemma BeforeIsStrictTotal(a: DateTime, b: DateTime)
    ensures !Before(a, a)
    ensures Before(a, b) ==> !Before(b, a)
    ensures a != b ==> Before(a, b) || Before(b, a)
  {
  }

  /** Stripping leading `?` means one more in front changes nothing. */
  lemma LeadingQuestionMarkIgnored(token: string, nowUtc: DateTime)
    ensures IsSessionExpired("?" + token, nowUtc) == IsSessionExpired(token, nowUtc)
  {
    assert ("?" + token)[1..] == token;
  }

  /** A token that starts with `se=<rendered expiry>` has that expiry,
      whatever follows, including further `se` values. */
  lemma ExpiryOfToken(e: DateTime, rest: string)
    requires Valid(e) && e.microsecond == 0
    ensures SessionExpiry("se=" + FormatTimestamp(e) + "&" + rest) == Success(e)
  {
    var f := FormatTimestamp(e);
    FormatHasNoSeparators(e);
    LeadingValue(f, rest);
    FormatParseRoundTrip(e);
  }

  /** The value of a leading `se=<f>` piece comes first among the token's
      `se` values. */
  lemma LeadingValue(f: string, rest: string)
    requires '&' !in f && |f| > 0
    ensures ExpiryValues("se=" + f + "&" + rest) == [f] + Values(rest, "se")
  {
    var token := "se=" + f + "&" + rest;
    assert LStripChar(token, '?') == token;
    assert token == ("se" + "=" + f) + "&" + rest;
    ValuesOfJoin("se" + "=" + f, rest, "se");
    SinglePair("se", f);
  }

  /** The same holds when `se` follows other parameters that carry no `se`
      value of their own, as in an issued token `sv=…&sp=…&se=…&sig=…`. */
  lemma ExpiryAfterOtherParameters(pre: string, e: DateTime, rest: string)
    requires |pre| > 0 && pre[0] != '?' && Values(pre, "se") == []
    requires Valid(e) && e.microsecond == 0
    ensures SessionExpiry(pre + "&" + ("se=" + FormatTimestamp(e) + "&" + rest)) == Success(e)
  {
    var tail := "se=" + FormatTimestamp(e) + "&" + rest;
    var token := pre + "&" + tail;
    ExpiryOfToken(e, rest);
    assert LStripChar(tail, '?') == tail;
    assert LStripChar(token, '?') == token;
    ValuesOfJoin(pre, tail, "se");
    assert ExpiryValues(token) == ExpiryValues(tail);
  }

  /** Such a token is judged by that expiry alone. */
  lemma FirstExpiryDecides(e: DateTime, rest: string, nowUtc: DateTime)
    requires Valid(e) && e.microsecond == 0
    ensures IsSessionExpired("se=" + FormatTimestamp(e) + "&" + rest, nowUtc)
         == Success(Before(e, Truncate(nowUtc)))
  {
    ExpiryOfToken(e, rest);
  }

  /** An empty token has no expiry. */
  lemma EmptyTokenHasNoExpiry()
    ensures SessionExpiry("") == Failure(MissingSessionExpiry)
  {
    assert SplitOn("", '&') == [""];
    assert Field("") == None;
  }

  /** Up to the last microsecond of the expiry's own second the token is
      not expired; from the next second on it is. */
  lemma ExpiryBoundary(e: DateTime, rest: string, nowUtc: DateTime)
    requires Valid(e) && e.microsecond == 0 && nowUtc.microsecond >= 0
    ensures Truncate(nowUtc) == e ==>
      IsSessionExpired("se=" + FormatTimestamp(e) + "&" + rest, nowUtc) == Success(false)
    ensures Before(e, nowUtc) && Truncate(nowUtc) != e ==>
      IsSessionExpired("se=" + FormatTimestamp(e) + "&" + rest, nowUtc) == Success(true)
  {
    FirstExpiryDecides(e, rest, nowUtc);
    SecondsCompare(e, nowUtc);
    BeforeIsStrictTotal(e, e);
  }

  /** The rendering of a date-time holds neither `&` nor `=` and is never
      empty, so it is one whole query value. */
  lemma FormatHasNoSeparators(d: DateTime)
    requires Valid(d)
    ensures '&' !in FormatTimestamp(d) && '=' !in FormatTimestamp(d) && |FormatTimestamp(d)| == 20
  {
    var y, mo, da := Pad(d.year, 4), Pad(d.month, 2), Pad(d.day, 2);
    var h, mi, se := Pad(d.hour, 2), Pad(d.minute, 2), Pad(d.second, 2);
    DigitsHaveNoSeparators(y);
    DigitsHaveNoSeparators(mo);
    DigitsHaveNoSeparators(da);
    DigitsHaveNoSeparators(h);
    DigitsHaveNoSeparators(mi);
    DigitsHaveNoSeparators(se);
    var date := y + "-" + mo + "-" + da;
    var time := h + ":" + mi + ":" + se;
    assert '&' !in date && '=' !in date;
    assert '&' !in time && '=' !in time;
    assert FormatTimestamp(d) == date + "T" + time + "Z";
  }

  lemma DigitsHaveNoSeparators(s: string)
    requires AllDigits(s)
    ensures '&' !in s && '=' !in s
  {
  }
}

=== FILE: strings.dfy ===
/** The text primitives the wrapper relies on: Python's `in`, `startswith`,
    `strip`, `lstrip`, `split`, `int()` on a digit run and `"{}".format` on
    an int, restricted to ASCII digits. */
module Strings {

  // ---------------------------------------------------------------- digits

  predicate IsDigit(c: char) {
    '0' <= c <= '9'
  }

  predicate AllDigits(s: string) {
    forall i :: 0 <= i < |s| ==> IsDigit(s[i])
  }

  function DigitValue(c: char): nat
    requires IsDigit(c)
  {
    c as int - '0' as int
  }

  function DigitChar(d: nat): (c: char)
    requires d < 10
    ensures IsDigit(c) && DigitValue(c) == d
  {
    ('0' as int + d) as char
  }

  /** The number a run of decimal digits denotes, as `int()` reads it
      (leading zeros allowed). */
  function DigitsValue(s: string): nat
    requires AllDigits(s)
  {
    if |s| == 0 then 0 else 10 * DigitsValue(s[..|s| - 1]) + DigitValue(s[|s| - 1])
  }

  /** The decimal rendering of `n`, as `"{}".format(n)` gives it: digits
      only, no leading zero, and reading it back gives `n`. */
  function NatToString(n: nat): (s: string)
    ensures |s| > 0 && AllDigits(s)
    ensures DigitsValue(s) == n
    ensures s[0] == '0' ==> n == 0
  {
    if n < 10 then [DigitChar(n)]
    else
      var s := NatToString(n / 10) + [DigitChar(n % 10)];
      assert s[..|s| - 1] == NatToString(n / 10);
      s
  }

  /** Number of consecutive digits of `s` starting at index `j`: the longest
      run a greedy `\d+` takes there. */
  function DigitRun(s: string, j: nat): (n: nat)
    requires j <= |s|
    ensures j + n <= |s|
    ensures forall k :: j <= k < j + n ==> IsDigit(s[k])
    ensures j + n == |s| || !IsDigit(s[j + n])
    decreases |s| - j
  {
    if j == |s| || !IsDigit(s[j]) then 0 else 1 + DigitRun(s, j + 1)
  }

  /** The digit run at `j` is exactly `digits` when a non-digit follows it. */
  lemma {:induction false} DigitRunOf(s: string, j: nat, digits: string)
    requires AllDigits(digits)
    requires j + |digits| < |s| && s[j..j + |digits|] == digits && !IsDigit(s[j + |digits|])
    ensures DigitRun(s, j) == |digits|
    decreases |digits|
  {
    if |digits| > 0 {
      assert s[j] == digits[0];
      assert s[j + 1..j + 1 + |digits[1..]|] == digits[1..];
      DigitRunOf(s, j + 1, digits[1..]);
    }
  }

  // ------------------------------------------------------ search and prefix

  predicate StartsWith(s: string, p: string) {
    |p| <= |s| && s[..|p|] == p
  }

  predicate EndsWith(s: string, p: string) {
    |p| <= |s| && s[|s| - |p|..] == p
  }

  /** `p` occurs in `s` starting at index `i`. */
  predicate OccursAt(s: string, p: string, i: int) {
    0 <= i && i + |p| <= |s| && s[i..i + |p|] == p
  }

  /** Python's `p in s` for strings. */
  predicate Contains(s: string, p: string) {
    exists i | 0 <= i <= |s| - |p| :: OccursAt(s, p, i)
  }

  // ------------------------------------------------------------ whitespace

  /** The characters Python's `str.isspace` accepts; `strip()` removes
      exactly these. */
  predicate IsSpace(c: char) {
    var k := c as int;
    k == 0x20 || 0x09 <= k <= 0x0D || 0x1C <= k <= 0x1F || k == 0x85 || k == 0xA0
    || k == 0x1680 || 0x2000 <= k <= 0x200A || k == 0x2028 || k == 0x2029
    || k == 0x202F || k == 0x205F || k == 0x3000
  }

  /** `s.lstrip()`: the suffix of `s` left after dropping leading whitespace. */
  function TrimStart(s: string): (r: string)
    ensures EndsWith(s, r)
    ensures forall k :: 0 <= k < |s| - |r| ==> IsSpace(s[k])
    ensures |r| > 0 ==> !IsSpace(r[0])
  {
    if |s| > 0 && IsSpace(s[0]) then TrimStart(s[1..]) else s
  }

  /** `s.rstrip()`: the prefix of `s` left after dropping trailing whitespace. */
  function TrimEnd(s: string): (r: string)
    ensures StartsWith(s, r)
    ensures forall k :: |r| <= k < |s| ==> IsSpace(s[k])
    ensures |r| > 0 ==> !IsSpace(r[|r| - 1])
  {
    if |s| > 0 && IsSpace(s[|s| - 1]) then TrimEnd(s[..|s| - 1]) else s
  }

  /** `r` is the slice `s[i..i+|r|]` and everything of `s` around it is
      whitespace. */
  predicate Framed(s: string, r: string, i: int) {
    && 0 <= i && i + |r| <= |s| && s[i..i + |r|] == r
    && (forall k :: 0 <= k < i ==> IsSpace(s[k]))
    && (forall k :: i + |r| <= k < |s| ==> IsSpace(s[k]))
  }

  /** `s.strip()`: the middle of `s` with whitespace removed at both ends. */
  function Strip(s: string): (r: string)
    ensures exists i :: Framed(s, r, i)
    ensures |r| > 0 ==> !IsSpace(r[0]) && !IsSpace(r[|r| - 1])
  {
    var t := TrimStart(s);
    var r := TrimEnd(t);
    var i := |s| - |t|;
    assert s[i..i + |r|] == t[..|r|];
    assert Framed(s, r, i);
    r
  }

  /** `s.lstrip(c)` for a single character `c`. */
  function LStripChar(s: string, c: char): (r: string)
    ensures EndsWith(s, r)
    ensures forall k :: 0 <= k < |s| - |r| ==> s[k] == c
    ensures |r| > 0 ==> r[0] != c
  {
    if |s| > 0 && s[0] == c then LStripChar(s[1..], c) else s
  }

  // ------------------------------------------------------------- splitting

  /** `s.split(c)[-1]`: the text after the last `c`, or all of `s` when `c`
      does not occur. */
  function AfterLast(s: string, c: char): (r: string)
    ensures EndsWith(s, r)
    ensures c !in r
    ensures |r| < |s| ==> s[|s| - |r| - 1] == c
  {
    if |s| == 0 then ""
    else if s[|s| - 1] == c then ""
    else
      var r := AfterLast(s[..|s| - 1], c) + [s[|s| - 1]];
      assert s[|s| - |r|..] == s[..|s| - 1][|s| - |r|..] + [s[|s| - 1]];
      r
  }

  /** The pieces joined back with `c` between them. */
  function Join(parts: seq<string>, c: char): string
    requires |parts| > 0
  {
    if |parts| == 1 then parts[0] else parts[0] + [c] + Join(parts[1..], c)
  }

  /** `s.split(c)`: the maximal `c`-free pieces between occurrences of `c`. */
  function SplitOn(s: string, c: char): (parts: seq<string>)
    ensures |parts| > 0
    ensures forall k :: 0 <= k < |parts| ==> c !in parts[k]
    ensures Join(parts, c) == s
  {
    if |s| == 0 then [""]
    else
      var rest := SplitOn(s[1..], c);
      if s[0] == c then
        [""] + rest
      else
        var parts := [[s[0]] + rest[0]] + rest[1..];
        assert parts[1..] == rest[1..];
        parts
  }

  /** `s.split(c, 1)` when it yields two pieces: the text before the first
      `c` and the text after it. */
  function SplitOnce(s: string, c: char): (r: (string, string))
    requires c in s
    ensures s == r.0 + [c] + r.1
    ensures c !in r.0
  {
    if s[0] == c then ("", s[1..])
    else
      var rest := SplitOnce(s[1..], c);
      ([s[0]] + rest.0, rest.1)
  }
}

=== FILE: summary.dfy ===
/** Reading the job summary the tool prints at the end of a run: each
    counter is looked up by its label with the pattern `<label>: \d+\n`, and
    a label that does not match reads as 0. The same lookup appears twice in
    the source (as an `AzClient` method and as a free function); both are
    this one definition. */
module Summary {
  import opened Wrappers
  import opened Strings
  import opened Utilities

  // ------------------------------------------------------------ the lookup

  /** Where the digits of a match at `i` start. */
  function DigitsStart(key: string, i: nat): nat {
    i + |key| + 2
  }

  /** `re.search(key + r": \d+\n", summary)` can match at index `i`: the key,
      a colon and a space, then a digit run that a newline ends. Because
      `\d+` is greedy and the newline is not a digit, the run is the longest
      one at that point. */
  predicate MatchAt(summary: string, key: string, i: int) {
    && OccursAt(summary, key + ": ", i)
    && var j := DigitsStart(key, i);
       && DigitRun(summary, j) > 0
       && j + DigitRun(summary, j) < |summary|
       && summary[j + DigitRun(summary, j)] == '\n'
  }

  /** `i` is where `re.search` reports the match: the leftmost one. */
  predicate LeftmostMatch(summary: string, key: string, i: int) {
    MatchAt(summary, key, i) && forall k :: 0 <= k < i ==> !MatchAt(summary, key, k)
  }

  /** The digits `\d+` matched at `i`. */
  function MatchedDigits(summary: string, key: string, i: nat): (d: string)
    requires MatchAt(summary, key, i)
    ensures |d| > 0 && AllDigits(d)
  {
    var j := DigitsStart(key, i);
    summary[j..j + DigitRun(summary, j)]
  }

  /** The whole text of the match at `i`, newline included. */
  function MatchedText(summary: string, key: string, i: nat): (t: string)
    requires MatchAt(summary, key, i)
    ensures t == key + ": " + MatchedDigits(summary, key, i) + "\n"
  {
    var j := DigitsStart(key, i);
    var e := j + DigitRun(summary, j);
    assert summary[i..e + 1] == summary[i..j] + summary[j..e] + [summary[e]];
    summary[i..e + 1]
  }

  /** The leftmost match at or after `from`. */
  function FirstMatch(summary: string, key: string, from: nat): (r: Option<nat>)
    ensures r.Some? ==> from <= r.value && MatchAt(summary, key, r.value)
    ensures r.Some? ==> forall k :: from <= k < r.value ==> !MatchAt(summary, key, k)
    ensures r.None? ==> forall k :: from <= k ==> !MatchAt(summary, key, k)
    decreases |summary| + 1 - from
  {
    if from > |summary| then None
    else if MatchAt(summary, key, from) then Some(from)
    else FirstMatch(summary, key, from + 1)
  }

  /** `re.search(r"\d+", text)` converted with `int()`: the value of the
      first digit run of `text`, or 0 when it has none. */
  function FirstNumber(text: string): nat {
    if |text| == 0 then 0
    else if IsDigit(text[0]) then DigitsValue(text[..DigitRun(text, 0)])
    else FirstNumber(text[1..])
  }

  predicate NoDigits(s: string) {
    forall k :: 0 <= k < |s| ==> !IsDigit(s[k])
  }

  lemma {:induction false} FirstNumberSkips(pre: string, rest: string)
    requires NoDigits(pre)
    ensures FirstNumber(pre + rest) == FirstNumber(rest)
  {
    if |pre| > 0 {
      assert (pre + rest)[1..] == pre[1..] + rest;
      FirstNumberSkips(pre[1..], rest);
    } else {
      assert pre + rest == rest;
    }
  }

  /** `get_property_value(key, summary)`: the number in the leftmost
      `key: <digits>\n` of the summary, 0 when there is none. The source's
      `except` branch, which reads 0, is not modelled: the model reads every
      digit run as its number, however long. */
  function PropertyValue(key: string, summary: string): (r: nat)
    ensures (forall i :: !MatchAt(summary, key, i)) ==> r == 0
    ensures forall i: nat :: NoDigits(key) && LeftmostMatch(summary, key, i) ==>
      r == DigitsValue(MatchedDigits(summary, key, i))
  {
    match FirstMatch(summary, key, 0)
    case None => 0
    case Some(i) =>
      MatchedNumber(summary, key, i);
      FirstNumber(MatchedText(summary, key, i))
  }

  /** With a digit-free key, the first number of the matched text is the
      matched digit run. */
  lemma MatchedNumber(summary: string, key: string, i: nat)
    requires MatchAt(summary, key, i)
    ensures NoDigits(key) ==>
      FirstNumber(MatchedText(summary, key, i)) == DigitsValue(MatchedDigits(summary, key, i))
  {
    if NoDigits(key) {
      var d := MatchedDigits(summary, key, i);
      FirstNumberSkips(key + ": ", d + "\n");
      assert key + ": " + d + "\n" == (key + ": ") + (d + "\n");
      assert (d + "\n")[|d|] == '\n';
      assert DigitRun(d + "\n", 0) == |d|;
      assert (d + "\n")[..|d|] == d;
    }
  }

  /** With no newline anywhere, no label can match: every lookup reads 0,
      even a label whose digits end the buffer. */
  lemma NoNewlineReadsZero(key: string, summary: string)
    requires '\n' !in summary
    ensures PropertyValue(key, summary) == 0
  {
  }

  /** A label at the start of a line reads as the digits after it, whatever
      follows, as long as no earlier line already holds `key: `: the first
      occurrence decides and later ones are ignored. The earlier lines may
      hold anything else, other labels and their colons included. */
  lemma {:induction false} LabelledLineReads(key: string, pre: string, digits: string, post: string)
    requires NoDigits(key) && '\n' !in key
    requires pre == [] || pre[|pre| - 1] == '\n'
    requires !Contains(pre, key + ": ")
    requires |digits| > 0 && AllDigits(digits)
    ensures PropertyValue(key, pre + key + ": " + digits + "\n" + post) == DigitsValue(digits)
  {
    var s := pre + key + ": " + digits + "\n" + post;
    var i := |pre|;
    var j := DigitsStart(key, i);
    assert s[i..i + |key + ": "|] == key + ": ";
    assert s[j..j + |digits|] == digits;
    assert s[j + |digits|] == '\n';
    assert DigitRun(s, j) == |digits| by {
      DigitRunOf(s, j, digits);
    }
    assert MatchAt(s, key, i);
    forall k | 0 <= k < i
      ensures !MatchAt(s, key, k)
    {
      EarlierLinesDoNotMatch(s, pre, key, k);
    }
    assert LeftmostMatch(s, key, i);
    assert MatchedDigits(s, key, i) == digits;
  }

  /** No match starts inside `pre` when `pre` ends a line and does not hold
      `key: ` itself: a match straddling its end would hold a newline. */
  lemma EarlierLinesDoNotMatch(s: string, pre: string, key: string, k: int)
    requires '\n' !in key && StartsWith(s, pre) && 0 <= k < |pre|
    requires pre[|pre| - 1] == '\n'
    requires !Contains(pre, key + ": ")
    ensures !OccursAt(s, key + ": ", k)
  {
    var p := key + ": ";
    if k + |p| <= |pre| {
      assert s[k..k + |p|] == s[..|pre|][k..k + |p|];
      assert !OccursAt(pre, p, k);
    } else {
      var o := |pre| - 1 - k;
      assert s[k + o] == s[..|pre|][|pre| - 1];
      assert p[o] != '\n' by {
        if o < |key| {
          assert p[o] == key[o];
        }
      }
    }
  }

  /** A match at `k` puts a colon right after the key. */
  lemma MatchColon(s: string, key: string, k: int)
    ensures MatchAt(s, key, k) ==> 0 <= k && k + |key| < |s| && s[k + |key|] == ':'
  {
    if MatchAt(s, key, k) {
      assert s[k..k + |key| + 2][|key|] == (key + ": ")[|key|];
    }
  }

  /** A line for one label cannot be read for another label unless the
      second is a suffix of the first: the only colon of the line follows
      its own label. */
  lemma OtherLabelReadsZero(key: string, other: string, digits: string)
    requires ':' !in other && !EndsWith(other, key)
    requires AllDigits(digits)
    ensures PropertyValue(key, other + ": " + digits + "\n") == 0
  {
    var s := other + ": " + digits + "\n";
    var tail := ": " + digits + "\n";
    assert s == other + tail;
    forall i
      ensures !MatchAt(s, key, i)
    {
      MatchColon(s, key, i);
      if 0 <= i && i + |key| < |s| {
        if i + |key| < |other| {
          assert s[i + |key|] == other[i + |key|];
        } else if i + |key| > |other| {
          var o := i + |key| - |other|;
          assert s[i + |key|] == tail[o];
          assert 1 <= o < |tail|;
          assert tail[o] == ' ' || IsDigit(tail[o]) || tail[o] == '\n' by {
            if o == 1 {
            } else if o < |tail| - 1 {
              assert tail[o] == digits[o - 2];
            }
          }
        } else {
          assert s[i..i + |key|] == other[|other| - |key|..];
          assert s[i..i + |key|] != key;
          assert s[i..i + |key| + 2][..|key|] == s[i..i + |key|];
        }
      }
    }
  }

  // ------------------------------------------------------- labels and fields

  /** The counters of the copy record that the summary sets, one per
      distinct label. */
  datatype CopyCounter =
    | FileTransfers | FolderPropertyTransfers | TotalTransfers
    | TransfersCompleted | TransfersFailed | TransfersSkipped

  /** The label a copy counter is looked up by; the counter is the attribute
      `label.lower().replace(" ", "_")` names. */
  function CopyLabel(c: CopyCounter): string {
    match c
    case FileTransfers => "Number of File Transfers"
    case FolderPropertyTransfers => "Number of Folder Property Transfers"
    case TotalTransfers => "Total Number of Transfers"
    case TransfersCompleted => "Number of Transfers Completed"
    case TransfersFailed => "Number of Transfers Failed"
    case TransfersSkipped => "Number of Transfers Skipped"
  }

  /** The labels `get_transfer_copy_summary_info` looks up, in source order,
      as the counters they name; "Number of File Transfers" is listed twice. */
  const CopyOrder: seq<CopyCounter> := [
    FileTransfers, FolderPropertyTransfers, FileTransfers, TotalTransfers,
    TransfersCompleted, TransfersFailed, TransfersSkipped
  ]

  /** The label read separately into `total_bytes_transferred`. */
  const TotalBytesLabel: string := "TotalBytesTransferred"

  /** `getattr(info, attribute)` for a copy counter. */
  function CopyCount(info: JobInfo, c: CopyCounter): int {
    match c
    case FileTransfers => info.numberOfFileTransfers
    case FolderPropertyTransfers => info.numberOfFolderPropertyTransfers
    case TotalTransfers => info.totalNumberOfTransfers
    case TransfersCompleted => info.numberOfTransfersCompleted
    case TransfersFailed => info.numberOfTransfersFailed
    case TransfersSkipped => info.numberOfTransfersSkipped
  }

  /** `setattr(info, attribute, v)` for a copy counter: that counter holds
      `v` and every other field is as before. */
  function SetCopyCount(info: JobInfo, c: CopyCounter, v: int): (r: JobInfo)
    ensures CopyCount(r, c) == v
    ensures forall d :: d != c ==> CopyCount(r, d) == CopyCount(info, d)
    ensures r.percentComplete == info.percentComplete && r.errorMsg == info.errorMsg
    ensures r.finalJobStatusMsg == info.finalJobStatusMsg && r.completed == info.completed
    ensures r.totalBytesTransferred == info.totalBytesTransferred
  {
    match c
    case FileTransfers => info.(numberOfFileTransfers := v)
    case FolderPropertyTransfers => info.(numberOfFolderPropertyTransfers := v)
    case TotalTransfers => info.(totalNumberOfTransfers := v)
    case TransfersCompleted => info.(numberOfTransfersCompleted := v)
    case TransfersFailed => info.(numberOfTransfersFailed := v)
    case TransfersSkipped => info.(numberOfTransfersSkipped := v)
  }

  /** The loop over `properties_required`: each counter, in order, is set to
      the value of its label. A counter listed holds the value of its label
      afterwards; one not listed keeps its value; nothing else changes. */
  function ApplyCopyLabels(info: JobInfo, order: seq<CopyCounter>, summary: string): (r: JobInfo)
    ensures forall c :: c in order ==> CopyCount(r, c) == PropertyValue(CopyLabel(c), summary)
    ensures forall c :: c !in order ==> CopyCount(r, c) == CopyCount(info, c)
    ensures r.percentComplete == info.percentComplete && r.errorMsg == info.errorMsg
    ensures r.finalJobStatusMsg == info.finalJobStatusMsg && r.completed == info.completed
    ensures r.totalBytesTransferred == info.totalBytesTransferred
    decreases |order|
  {
    if |order| == 0 then info
    else
      var c := order[0];
      var next := SetCopyCount(info, c, PropertyValue(CopyLabel(c), summary));
      var r := ApplyCopyLabels(next, order[1..], summary);
      assert forall d :: d in order ==> d == c || d in order[1..];
      r
  }

  /** `get_transfer_copy_summary_info` (and the client's `get_summary_info`):
      every copy counter holds the value of its own label, the byte count
      that of `TotalBytesTransferred`, and nothing else changes. */
  function CopySummaryInfo(info: JobInfo, summary: string): (r: JobInfo)
    ensures forall c :: CopyCount(r, c) == PropertyValue(CopyLabel(c), summary)
    ensures r.totalBytesTransferred == PropertyValue(TotalBytesLabel, summary)
    ensures r.percentComplete == info.percentComplete && r.errorMsg == info.errorMsg
    ensures r.finalJobStatusMsg == info.finalJobStatusMsg && r.completed == info.completed
  {
    // The byte count is a field of its own, so setting it first gives the
    // same record as setting it after the labels.
    var withBytes := info.(totalBytesTransferred := PropertyValue(TotalBytesLabel, summary));
    assert forall c :: c in CopyOrder by {
      forall c ensures c in CopyOrder { InCopyOrder(c); }
    }
    ApplyCopyLabels(withBytes, CopyOrder, summary)
  }

  lemma InCopyOrder(c: CopyCounter)
    ensures c in CopyOrder
  {
    match c
    case FileTransfers => assert CopyOrder[0] == c;
    case FolderPropertyTransfers => assert CopyOrder[1] == c;
    case TotalTransfers => assert CopyOrder[3] == c;
    case TransfersCompleted => assert CopyOrder[4] == c;
    case TransfersFailed => assert CopyOrder[5] == c;
    case TransfersSkipped => assert CopyOrder[6] == c;
  }

  /** `CopyOrder` without its second "Number of File Transfers" entry. */
  const DedupedCopyOrder: seq<CopyCounter> := [
    FileTransfers, FolderPropertyTransfers, TotalTransfers,
    TransfersCompleted, TransfersFailed, TransfersSkipped
  ]

  lemma InDedupedCopyOrder(c: CopyCounter)
    ensures c in DedupedCopyOrder
  {
    match c
    case FileTransfers => assert DedupedCopyOrder[0] == c;
    case FolderPropertyTransfers => assert DedupedCopyOrder[1] == c;
    case TotalTransfers => assert DedupedCopyOrder[2] == c;
    case TransfersCompleted => assert DedupedCopyOrder[3] == c;
    case TransfersFailed => assert DedupedCopyOrder[4] == c;
    case TransfersSkipped => assert DedupedCopyOrder[5] == c;
  }

  /** Two records that agree on every counter and on every other field are
      the same record. */
  lemma SameCountsSameRecord(a: JobInfo, b: JobInfo)
    requires forall c :: CopyCount(a, c) == CopyCount(b, c)
    requires a.(numberOfFileTransfers := 0, numberOfFolderPropertyTransfers := 0,
                totalNumberOfTransfers := 0, numberOfTransfersCompleted := 0,
                numberOfTransfersFailed := 0, numberOfTransfersSkipped := 0)
          == b.(numberOfFileTransfers := 0, numberOfFolderPropertyTransfers := 0,
                totalNumberOfTransfers := 0, numberOfTransfersCompleted := 0,
                numberOfTransfersFailed := 0, numberOfTransfersSkipped := 0)
    ensures a == b
  {
    assert CopyCount(a, FileTransfers) == CopyCount(b, FileTransfers);
    assert CopyCount(a, FolderPropertyTransfers) == CopyCount(b, FolderPropertyTransfers);
    assert CopyCount(a, TotalTransfers) == CopyCount(b, TotalTransfers);
    assert CopyCount(a, TransfersCompleted) == CopyCount(b, TransfersCompleted);
    assert CopyCount(a, TransfersFailed) == CopyCount(b, TransfersFailed);
    assert CopyCount(a, TransfersSkipped) == CopyCount(b, TransfersSkipped);
  }

  /** The duplicated "Number of File Transfers" entry has no effect: the
      list without it gives the same record. */
  lemma DuplicateLabelHasNoEffect(info: JobInfo, summary: string)
    ensures ApplyCopyLabels(info, CopyOrder, summary)
         == ApplyCopyLabels(info, DedupedCopyOrder, summary)
  {
    var a := ApplyCopyLabels(info, CopyOrder, summary);
    var b := ApplyCopyLabels(info, DedupedCopyOrder, summary);
    forall c ensures CopyCount(a, c) == CopyCount(b, c) {
      InCopyOrder(c);
      InDedupedCopyOrder(c);
    }
    SameCountsSameRecord(a, b);
  }

  /** Extraction overwrites every counter: the counters held before do not
      influence the result, and an empty summary resets them all to 0. */
  lemma CopySummaryResetsCounters(a: JobInfo, b: JobInfo, summary: string)
    requires a.percentComplete == b.percentComplete && a.errorMsg == b.errorMsg
    requires a.finalJobStatusMsg == b.finalJobStatusMsg && a.completed == b.completed
    ensures CopySummaryInfo(a, summary) == CopySummaryInfo(b, summary)
    ensures CopySummaryInfo(a, "") == a.(
      numberOfFileTransfers := 0, numberOfFolderPropertyTransfers := 0,
      totalNumberOfTransfers := 0, numberOfTransfersCompleted := 0,
      numberOfTransfersFailed := 0, numberOfTransfersSkipped := 0,
      totalBytesTransferred := 0)
  {
    var ra, rb := CopySummaryInfo(a, summary), CopySummaryInfo(b, summary);
    assert CopyCount(ra, FileTransfers) == CopyCount(rb, FileTransfers);
    assert CopyCount(ra, FolderPropertyTransfers) == CopyCount(rb, FolderPropertyTransfers);
    assert CopyCount(ra, TotalTransfers) == CopyCount(rb, TotalTransfers);
    assert CopyCount(ra, TransfersCompleted) == CopyCount(rb, TransfersCompleted);
    assert CopyCount(ra, TransfersFailed) == CopyCount(rb, TransfersFailed);
    assert CopyCount(ra, TransfersSkipped) == CopyCount(rb, TransfersSkipped);
    var z := CopySummaryInfo(a, "");
    forall c ensures CopyCount(z, c) == 0 {
      NoNewlineReadsZero(CopyLabel(c), "");
    }
    NoNewlineReadsZero(TotalBytesLabel, "");
    assert CopyCount(z, FileTransfers) == 0 && CopyCount(z, FolderPropertyTransfers) == 0;
    assert CopyCount(z, TotalTransfers) == 0 && CopyCount(z, TransfersCompleted) == 0;
    assert CopyCount(z, TransfersFailed) == 0 && CopyCount(z, TransfersSkipped) == 0;
  }

  /** The counters of the sync record, one per sync label. */
  datatype SyncCounter =
    | ScannedAtSource | ScannedAtDestination | CopiesForFiles
    | CopiesForFolderProperties | TotalCopies | CopiesCompleted | CopiesFailed
    | DeletionsAtDestination | BytesTransferred | BytesEnumerated

  /** The label a sync counter is looked up by; the counter is the attribute
      the label names once lower-cased, with spaces turned to underscores and
      parentheses removed. */
  function SyncLabel(c: SyncCounter): string {
    match c
    case ScannedAtSource => "Files Scanned at Source"
    case ScannedAtDestination => "Files Scanned at Destination"
    case CopiesForFiles => "Number of Copy Transfers for Files"
    case CopiesForFolderProperties => "Number of Copy Transfers for Folder Properties"
    case TotalCopies => "Total Number Of Copy Transfers"
    case CopiesCompleted => "Number of Copy Transfers Completed"
    case CopiesFailed => "Number of Copy Transfers Failed"
    case DeletionsAtDestination => "Number of Deletions at Destination"
    case BytesTransferred => "Total Number of Bytes Transferred"
    case BytesEnumerated => "Total Number of Bytes Enumerated"
  }

  /** The labels `get_sync_summary_info` looks up, in source order. */
  const SyncOrder: seq<SyncCounter> := [
    ScannedAtSource, ScannedAtDestination, CopiesForFiles, CopiesForFolderProperties,
    TotalCopies, CopiesCompleted, CopiesFailed, DeletionsAtDestination,
    BytesTransferred, BytesEnumerated
  ]

  /** `getattr(info, attribute)` for a sync counter. */
  function SyncCount(info: SyncJobInfo, c: SyncCounter): int {
    match c
    case ScannedAtSource => info.filesScannedAtSource
    case ScannedAtDestination => info.filesScannedAtDestination
    case CopiesForFiles => info.numberOfCopyTransfersForFiles
    case CopiesForFolderProperties => info.numberOfCopyTransfersForFolderProperties
    case TotalCopies => info.totalNumberOfCopyTransfers
    case CopiesCompleted => info.numberOfCopyTransfersCompleted
    case CopiesFailed => info.numberOfCopyTransfersFailed
    case DeletionsAtDestination => info.numberOfDeletionsAtDestination
    case BytesTransferred => info.totalNumberOfBytesTransferred
    case BytesEnumerated => info.totalNumberOfBytesEnumerated
  }

  /** `setattr(info, attribute, v)` for a sync counter. */
  function SetSyncCount(info: SyncJobInfo, c: SyncCounter, v: int): (r: SyncJobInfo)
    ensures SyncCount(r, c) == v
    ensures forall d :: d != c ==> SyncCount(r, d) == SyncCount(info, d)
    ensures r.percentComplete == info.percentComplete && r.errorMsg == info.errorMsg
    ensures r.finalJobStatusMsg == info.finalJobStatusMsg && r.completed == info.completed
  {
    match c
    case ScannedAtSource => info.(filesScannedAtSource := v)
    case ScannedAtDestination => info.(filesScannedAtDestination := v)
    case CopiesForFiles => info.(numberOfCopyTransfersForFiles := v)
    case CopiesForFolderProperties => info.(numberOfCopyTransfersForFolderProperties := v)
    case TotalCopies => info.(totalNumberOfCopyTransfers := v)
    case CopiesCompleted => info.(numberOfCopyTransfersCompleted := v)
    case CopiesFailed => info.(numberOfCopyTransfersFailed := v)
    case DeletionsAtDestination => info.(numberOfDeletionsAtDestination := v)
    case BytesTransferred => info.(totalNumberOfBytesTransferred := v)
    case BytesEnumerated => info.(totalNumberOfBytesEnumerated := v)
  }

  /** The loop over the sync labels, with the same guarantees as
      `ApplyCopyLabels`. */
  function ApplySyncLabels(info: SyncJobInfo, order: seq<SyncCounter>, summary: string): (r: SyncJobInfo)
    ensures forall c :: c in order ==> SyncCount(r, c) == PropertyValue(SyncLabel(c), summary)
    ensures forall c :: c !in order ==> SyncCount(r, c) == SyncCount(info, c)
    ensures r.percentComplete == info.percentComplete && r.errorMsg == info.errorMsg
    ensures r.finalJobStatusMsg == info.finalJobStatusMsg && r.completed == info.completed
    decreases |order|
  {
    if |order| == 0 then info
    else
      var c := order[0];
      var next := SetSyncCount(info, c, PropertyValue(SyncLabel(c), summary));
      var r := ApplySyncLabels(next, order[1..], summary);
      assert forall d :: d in order ==> d == c || d in order[1..];
      r
  }

  lemma InSyncOrder(c: SyncCounter)
    ensures c in SyncOrder
  {
    match c
    case ScannedAtSource => assert SyncOrder[0] == c;
    case ScannedAtDestination => assert SyncOrder[1] == c;
    case CopiesForFiles => assert SyncOrder[2] == c;
    case CopiesForFolderProperties => assert SyncOrder[3] == c;
    case TotalCopies => assert SyncOrder[4] == c;
    case CopiesCompleted => assert SyncOrder[5] == c;
    case CopiesFailed => assert SyncOrder[6] == c;
    case DeletionsAtDestination => assert SyncOrder[7] == c;
    case BytesTransferred => assert SyncOrder[8] == c;
    case BytesEnumerated => assert SyncOrder[9] == c;
  }

  /** `get_sync_summary_info`: every sync counter holds the value of its own
      label, and nothing else changes. */
  function SyncSummaryInfo(info: SyncJobInfo, summary: string): (r: SyncJobInfo)
    ensures forall c :: SyncCount(r, c) == PropertyValue(SyncLabel(c), summary)
    ensures r.percentComplete == info.percentComplete && r.errorMsg == info.errorMsg
    ensures r.finalJobStatusMsg == info.finalJobStatusMsg && r.completed == info.completed
  {
    assert forall c :: c in SyncOrder by {
      forall c ensures c in SyncOrder { InSyncOrder(c); }
    }
    ApplySyncLabels(info, SyncOrder, summary)
  }

  /** A line written for one copy label is never read for a different one,
      although the search is unanchored: no copy label ends with another. */
  lemma CopyLineReadsOnlyItsOwnLabel(c: CopyCounter, d: CopyCounter, digits: string)
    requires c != d && AllDigits(digits)
    ensures PropertyValue(CopyLabel(c), CopyLabel(d) + ": " + digits + "\n") == 0
  {
    var key, other := CopyLabel(c), CopyLabel(d);
    LabelsNotSuffixes(c, d);
    OtherLabelReadsZero(key, other, digits);
  }

  /** No copy label ends with a different one, and none holds a colon. */
  lemma LabelsNotSuffixes(c: CopyCounter, d: CopyCounter)
    requires c != d
    ensures !EndsWith(CopyLabel(d), CopyLabel(c))
    ensures ':' !in CopyLabel(d)
  {
    ColonFree(d);
    match c
    case FileTransfers => FileTransfersNotSuffix(d);
    case FolderPropertyTransfers => FolderPropertyTransfersNotSuffix(d);
    case TotalTransfers => TotalTransfersNotSuffix(d);
    case TransfersCompleted => TransfersCompletedNotSuffix(d);
    case TransfersFailed => TransfersFailedNotSuffix(d);
    case TransfersSkipped => TransfersSkippedNotSuffix(d);
  }

  lemma ColonFree(c: CopyCounter)
    ensures ':' !in CopyLabel(c)
  {
    if c.FileTransfers? || c.FolderPropertyTransfers? || c.TotalTransfers? {
      TransferLabelsColonFree(c);
    } else {
      OutcomeLabelsColonFree(c);
    }
  }

  lemma TransferLabelsColonFree(c: CopyCounter)
    requires c.FileTransfers? || c.FolderPropertyTransfers? || c.TotalTransfers?
    ensures ':' !in CopyLabel(c)
  {
  }

  lemma OutcomeLabelsColonFree(c: CopyCounter)
    requires c.TransfersCompleted? || c.TransfersFailed? || c.TransfersSkipped?
    ensures ':' !in CopyLabel(c)
  {
  }

  /** `a` is not a suffix of `b` when they differ `k` places from the end. */
  lemma NotSuffixAt(a: string, b: string, k: nat)
    requires k < |a| && k < |b| && a[|a| - 1 - k] != b[|b| - 1 - k]
    ensures !EndsWith(b, a)
  {
  }

  lemma FileTransfersNotSuffix(d: CopyCounter)
    requires d != FileTransfers
    ensures !EndsWith(CopyLabel(d), CopyLabel(FileTransfers))
  {
    match d
    case FolderPropertyTransfers => NotSuffixAt(CopyLabel(FileTransfers), CopyLabel(d), 10);
    case TotalTransfers => NotSuffixAt(CopyLabel(FileTransfers), CopyLabel(d), 10);
    case TransfersCompleted => NotSuffixAt(CopyLabel(FileTransfers), CopyLabel(d), 0);
    case TransfersFailed => NotSuffixAt(CopyLabel(FileTransfers), CopyLabel(d), 0);
    case TransfersSkipped => NotSuffixAt(CopyLabel(FileTransfers), CopyLabel(d), 0);
  }

  lemma FolderPropertyTransfersNotSuffix(d: CopyCounter)
    requires d != FolderPropertyTransfers
    ensures !EndsWith(CopyLabel(d), CopyLabel(FolderPropertyTransfers))
  {
    match d
    case FileTransfers =>
    case TotalTransfers =>
    case TransfersCompleted =>
    case TransfersFailed =>
    case TransfersSkipped =>
  }

  lemma TotalTransfersNotSuffix(d: CopyCounter)
    requires d != TotalTransfers
    ensures !EndsWith(CopyLabel(d), CopyLabel(TotalTransfers))
  {
    match d
    case FileTransfers =>
    case FolderPropertyTransfers => NotSuffixAt(CopyLabel(TotalTransfers), CopyLabel(d), 10);
    case TransfersCompleted => NotSuffixAt(CopyLabel(TotalTransfers), CopyLabel(d), 0);
    case TransfersFailed => NotSuffixAt(CopyLabel(TotalTransfers), CopyLabel(d), 0);
    case TransfersSkipped => NotSuffixAt(CopyLabel(TotalTransfers), CopyLabel(d), 0);
  }

  lemma TransfersCompletedNotSuffix(d: CopyCounter)
    requires d != TransfersCompleted
    ensures !EndsWith(CopyLabel(d), CopyLabel(TransfersCompleted))
  {
    match d
    case FileTransfers =>
    case FolderPropertyTransfers => NotSuffixAt(CopyLabel(TransfersCompleted), CopyLabel(d), 0);
    case TotalTransfers =>
    case TransfersFailed =>
    case TransfersSkipped =>
  }

  lemma TransfersFailedNotSuffix(d: CopyCounter)
    requires d != TransfersFailed
    ensures !EndsWith(CopyLabel(d), CopyLabel(TransfersFailed))
  {
    match d
    case FileTransfers =>
    case FolderPropertyTransfers => NotSuffixAt(CopyLabel(TransfersFailed), CopyLabel(d), 0);
    case TotalTransfers =>
    case TransfersCompleted => NotSuffixAt(CopyLabel(TransfersFailed), CopyLabel(d), 2);
    case TransfersSkipped => NotSuffixAt(CopyLabel(TransfersFailed), CopyLabel(d), 2);
  }

  lemma TransfersSkippedNotSuffix(d: CopyCounter)
    requires d != TransfersSkipped
    ensures !EndsWith(CopyLabel(d), CopyLabel(TransfersSkipped))
  {
    match d
    case FileTransfers =>
    case FolderPropertyTransfers => NotSuffixAt(CopyLabel(TransfersSkipped), CopyLabel(d), 0);
    case TotalTransfers =>
    case TransfersCompleted => NotSuffixAt(CopyLabel(TransfersSkipped), CopyLabel(d), 2);
    case TransfersFailed =>
  }
}

=== FILE: timestamps.dfy ===
/** Naive calendar date-times, as Python's `datetime.datetime` holds them
    without a time zone, and the one `strptime` format the SAS checks use:
    `%Y-%m-%dT%H:%M:%SZ`. */
module Timestamps {
  import opened Wrappers
  import opened Strings

  datatype DateTime = DateTime(
    year: int, month: int, day: int,
    hour: int, minute: int, second: int, microsecond: int)

  predicate IsLeapYear(y: int) {
    y % 4 == 0 && (y % 100 != 0 || y % 400 == 0)
  }

  function DaysInMonth(y: int, m: int): int
    requires 1 <= m <= 12
  {
    if m == 2 then (if IsLeapYear(y) then 29 else 28)
    else if m == 4 || m == 6 || m == 9 || m == 11 then 30
    else 31
  }

  /** The field ranges `datetime.datetime` accepts (year 1 to 9999). */
  predicate Valid(d: DateTime) {
    && 1 <= d.year <= 9999
    && 1 <= d.month <= 12
    && 1 <= d.day <= DaysInMonth(d.year, d.month)
    && 0 <= d.hour <= 23
    && 0 <= d.minute <= 59
    && 0 <= d.second <= 59
    && 0 <= d.microsecond <= 999999
  }

  /** `a < b` on naive date-times: field by field, most significant first. */
  predicate Before(a: DateTime, b: DateTime) {
    if a.year != b.year then a.year < b.year
    else if a.month != b.month then a.month < b.month
    else if a.day != b.day then a.day < b.day
    else if a.hour != b.hour then a.hour < b.hour
    else if a.minute != b.minute then a.minute < b.minute
    else if a.second != b.second then a.second < b.second
    else a.microsecond < b.microsecond
  }

  /** The same instant with its fraction of a second dropped, as
      `timetuple()` does. */
  function Truncate(d: DateTime): (t: DateTime)
    ensures t.microsecond == 0
    ensures t.(microsecond := d.microsecond) == d
    ensures t == d <==> d.microsecond == 0
    ensures d.microsecond >= 0 ==> !Before(d, t)
  {
    d.(microsecond := 0)
  }

  // ------------------------------------------------------------ rendering

  function Pow10(w: nat): nat {
    if w == 0 then 1 else 10 * Pow10(w - 1)
  }

  /** `n` as exactly `w` decimal digits, zero-padded on the left (`%0wd`). */
  function Pad(n: nat, w: nat): (s: string)
    requires n < Pow10(w)
    ensures |s| == w && AllDigits(s)
    ensures DigitsValue(s) == n
  {
    if w == 0 then ""
    else
      var s := Pad(n / 10, w - 1) + [DigitChar(n % 10)];
      assert s[..|s| - 1] == Pad(n / 10, w - 1);
      s
  }

  /** A digit string is the padded rendering of its own value. */
  lemma {:induction false} PadOfValue(t: string)
    requires AllDigits(t)
    ensures DigitsValue(t) < Pow10(|t|)
    ensures Pad(DigitsValue(t), |t|) == t
  {
    if |t| > 0 {
      var h := t[..|t| - 1];
      PadOfValue(h);
      var v := DigitsValue(t);
      assert v / 10 == DigitsValue(h) && v % 10 == DigitValue(t[|t| - 1]);
      assert t == h + [t[|t| - 1]];
    }
  }

  /** The text `strftime("%Y-%m-%dT%H:%M:%SZ")` gives for `d`. */
  function FormatTimestamp(d: DateTime): string
    requires Valid(d)
  {
    Pad(d.year, 4) + "-" + Pad(d.month, 2) + "-" + Pad(d.day, 2) + "T"
    + Pad(d.hour, 2) + ":" + Pad(d.minute, 2) + ":" + Pad(d.second, 2) + "Z"
  }

  // -------------------------------------------------------------- parsing

  /** Positions 0-3, 5-6, 8-9, 11-12, 14-15 and 17-18 are digits and the
      separators `- - T : : Z` sit between them. */
  predicate Layout(s: string) {
    && |s| == 20
    && s[4] == '-' && s[7] == '-' && s[10] == 'T'
    && s[13] == ':' && s[16] == ':' && s[19] == 'Z'
    && AllDigits(s[0..4]) && AllDigits(s[5..7]) && AllDigits(s[8..10])
    && AllDigits(s[11..13]) && AllDigits(s[14..16]) && AllDigits(s[17..19])
  }

  /** `datetime.strptime(s, "%Y-%m-%dT%H:%M:%SZ")`: `None` where it raises
      `ValueError`. Every accepted text is the canonical rendering of the
      date-time it yields. */
  function ParseTimestamp(s: string): (r: Option<DateTime>)
    ensures r.Some? ==> Valid(r.value) && r.value.microsecond == 0
    ensures r.Some? ==> FormatTimestamp(r.value) == s
  {
    if !Layout(s) then None
    else
      var d := DateTime(
        DigitsValue(s[0..4]), DigitsValue(s[5..7]), DigitsValue(s[8..10]),
        DigitsValue(s[11..13]), DigitsValue(s[14..16]), DigitsValue(s[17..19]), 0);
      if !Valid(d) then None
      else
        PadOfValue(s[0..4]);
        PadOfValue(s[5..7]);
        PadOfValue(s[8..10]);
        PadOfValue(s[11..13]);
        PadOfValue(s[14..16]);
        PadOfValue(s[17..19]);
        assert s == s[0..4] + "-" + s[5..7] + "-" + s[8..10] + "T"
          + s[11..13] + ":" + s[14..16] + ":" + s[17..19] + "Z";
        Some(d)
  }

  /** Parsing the canonical rendering of a whole-second date-time gives it
      back. */
  lemma FormatParseRoundTrip(d: DateTime)
    requires Valid(d) && d.microsecond == 0
    ensures ParseTimestamp(FormatTimestamp(d)) == Some(d)
  {
    var s := FormatTimestamp(d);
    assert s[0..4] == Pad(d.year, 4);
    assert s[5..7] == Pad(d.month, 2);
    assert s[8..10] == Pad(d.day, 2);
    assert s[11..13] == Pad(d.hour, 2);
    assert s[14..16] == Pad(d.minute, 2);
    assert s[17..19] == Pad(d.second, 2);
    assert Layout(s);
  }
}

=== FILE: utilities.dfy ===
/** Transfer endpoints, copy options and job records: the value objects of
    `azcopy_utilities.py`, each with the argument text it renders to. */
module Utilities {
  import opened Wrappers
  import opened Strings

  // ------------------------------------------------------------ endpoints

  /** The two role strings of `LocationType`. A role is an arbitrary string:
      the constructors accept any text. */
  const Source: string := "source"
  const Destination: string := "destination"

  /** `AzRemoteSASLocation` (defaults: role `Destination`, no wildcard) and
      `AzLocalLocation` (defaults: role `Source`, no wildcard). */
  datatype Location =
    | Remote(storageAccount: string, container: string, path: string,
             useWildcard: bool, sasToken: string, locationType: string)
    | Local(path: string, useWildcard: bool, locationType: string)

  function DefaultRemote(): (l: Location)
    ensures l.Remote? && l.locationType == Destination && !l.useWildcard
    ensures l.storageAccount == l.container == l.path == l.sasToken == ""
  {
    Remote("", "", "", false, "", Destination)
  }

  function DefaultLocal(): (l: Location)
    ensures l.Local? && l.locationType == Source && !l.useWildcard && l.path == ""
  {
    Local("", false, Source)
  }

  /** `get_resource_uri`: the container's blob endpoint, ending in `/`. */
  function ResourceUri(account: string, container: string): (r: string)
    ensures StartsWith(r, "https://") && EndsWith(r, "/")
  {
    "https://" + account + ".blob.core.windows.net/" + container + "/"
  }

  /** Whether the rendering of `loc` carries a wildcard: only a source asks
      for one, and only when the flag is set. */
  predicate WantsWildcard(loc: Location) {
    loc.locationType == Source && loc.useWildcard
  }

  /** Rendering a local source with the wildcard set reads `path[-1]`,
      which raises `IndexError` on an empty path. */
  datatype RenderError = PathIndexOutOfRange

  /** `str(loc)`: the argument text handed to the tool. */
  function Render(loc: Location): (r: Result<string, RenderError>)
    ensures r.Failure? <==> loc.Local? && WantsWildcard(loc) && loc.path == ""
    ensures loc.Remote? ==>
      (&& r.Success?
       && StartsWith(r.value, ResourceUri(loc.storageAccount, loc.container) + loc.path)
       && EndsWith(r.value, "?" + loc.sasToken))
    ensures r.Success? ==> StartsWith(r.value, loc.path) || loc.Remote?
    ensures r.Success? && !WantsWildcard(loc) ==>
      r.value == (if loc.Local? then loc.path
                  else ResourceUri(loc.storageAccount, loc.container) + loc.path + "?" + loc.sasToken)
  {
    match loc
    case Remote(account, container, path, _, token, _) =>
      var wildcard := if WantsWildcard(loc) then "*" else "";
      var r := ResourceUri(account, container) + path + wildcard + "?" + token;
      assert r[..|ResourceUri(account, container) + path|] == ResourceUri(account, container) + path;
      assert r[|r| - |"?" + token|..] == "?" + token;
      Success(r)
    case Local(path, _, _) =>
      if !WantsWildcard(loc) then Success(path)
      else if |path| == 0 then Failure(PathIndexOutOfRange)
      else
        var wildcard := if path[|path| - 1] != '/' then "/*" else "*";
        assert (path + wildcard)[..|path|] == path;
        Success(path + wildcard)
  }

  // A wildcard-requesting local source renders to its path followed by a
  // single "/*": the slash is inserted only when the path lacks one, so the
  // result ends in "//*" only if the path already ended in "//".
  lemma LocalWildcardSuffix(path: string)
    requires |path| > 0
    ensures Render(Local(path, true, Source)).Success?
    ensures EndsWith(Render(Local(path, true, Source)).value, "/*")
    ensures EndsWith(path, "/") ==> Render(Local(path, true, Source)).value == path + "*"
    ensures !EndsWith(path, "/") ==> Render(Local(path, true, Source)).value == path + "/*"
    ensures EndsWith(Render(Local(path, true, Source)).value, "//*") ==> EndsWith(path, "//")
  {
    var r := Render(Local(path, true, Source)).value;
    if path[|path| - 1] == '/' {
      assert r == path + "*";
      assert r[|r| - 2..] == "/*";
      if EndsWith(r, "//*") {
        assert r[|r| - 3..] == path[|path| - 2..] + "*";
      }
    } else {
      assert r == path + "/*";
      assert r[|r| - 3] == path[|path| - 1];
    }
  }

  /** The wildcard flag has no effect on an endpoint whose role is not
      `Source`, and on a remote source it inserts a single `*` between the
      path and the `?` that introduces the token. */
  lemma WildcardOnlyForSource(loc: Location, flag: bool)
    requires loc.locationType != Source || loc.Remote?
    ensures loc.locationType != Source ==>
      Render(loc.(useWildcard := flag)) == Render(loc.(useWildcard := !flag))
    ensures loc.Remote? && loc.locationType == Source ==>
      |Render(loc.(useWildcard := true)).value| == |Render(loc.(useWildcard := false)).value| + 1
    ensures loc.Remote? && loc.locationType == Source ==>
      Render(loc.(useWildcard := true)).value
        == ResourceUri(loc.storageAccount, loc.container) + loc.path + "*" + "?" + loc.sasToken
  {
  }

  /** The defaults suit the common case: a local source copied to a remote
      destination. The two roles differ, neither endpoint asks for a
      wildcard, and each renders without failing. */
  lemma DefaultEndpoints()
    ensures DefaultLocal().locationType != DefaultRemote().locationType
    ensures Render(DefaultLocal()) == Success("")
    ensures Render(DefaultRemote()) == Success(ResourceUri("", "") + "?")
  {
    var u := ResourceUri("", "");
    assert u + "" + "" + "?" + "" == u + "?";
  }

  // -------------------------------------------------------------- options

  /** `AzCopyOptions` (defaults: everything off, no exclusion). */
  datatype CopyOptions = CopyOptions(
    overwriteExisting: bool, recursive: bool, putMd5: bool, excludePath: string)

  function DefaultCopyOptions(): (o: CopyOptions)
    ensures !o.overwriteExisting && !o.recursive && !o.putMd5 && o.excludePath == ""
  {
    CopyOptions(false, false, false, "")
  }

  /** `get_options_list`: the flags in their fixed order. */
  function OptionsList(o: CopyOptions): (r: seq<string>)
    ensures |r| == (if o.recursive then 1 else 0) + (if o.overwriteExisting then 0 else 2)
                 + (if o.putMd5 then 1 else 0) + (if |o.excludePath| > 0 then 2 else 0)
    ensures o.recursive <==> |r| > 0 && r[0] == "--recursive"
    ensures |o.excludePath| > 0 ==> r[|r| - 2..] == ["--exclude-path", o.excludePath]
  {
    (if o.recursive then ["--recursive"] else [])
    + (if !o.overwriteExisting then ["--overwrite", "false"] else [])
    + (if o.putMd5 then ["--put-md5"] else [])
    + (if |o.excludePath| > 0 then ["--exclude-path", o.excludePath] else [])
  }

  /** Reads a flag list back in the fixed order `OptionsList` writes it;
      `None` for a list no options render to. */
  function OptionsFromList(args: seq<string>): Option<CopyOptions> {
    var recursive := |args| > 0 && args[0] == "--recursive";
    var a1 := if recursive then args[1..] else args;
    var quiet := |a1| >= 2 && a1[0] == "--overwrite" && a1[1] == "false";
    var a2 := if quiet then a1[2..] else a1;
    var md5 := |a2| > 0 && a2[0] == "--put-md5";
    var a3 := if md5 then a2[1..] else a2;
    if |a3| == 0 then Some(CopyOptions(!quiet, recursive, md5, ""))
    else if |a3| == 2 && a3[0] == "--exclude-path" && |a3[1]| > 0 then
      Some(CopyOptions(!quiet, recursive, md5, a3[1]))
    else None
  }

  /** With every option defaulted, the only flags are the ones that keep
      existing files: `--overwrite false`. */
  lemma DefaultOptionsKeepExisting()
    ensures OptionsList(DefaultCopyOptions()) == ["--overwrite", "false"]
  {
  }

  /** The flag list determines the options it was rendered from: no two
      option values give the same arguments. */
  lemma OptionsRoundTrip(o: CopyOptions)
    ensures OptionsFromList(OptionsList(o)) == Some(o)
  {
    var r := OptionsList(o);
    var p1 := if o.recursive then ["--recursive"] else [];
    var p2 := if !o.overwriteExisting then ["--overwrite", "false"] else [];
    var p3 := if o.putMd5 then ["--put-md5"] else [];
    var p4 := if |o.excludePath| > 0 then ["--exclude-path", o.excludePath] else [];
    var t4 := p4;
    var t3 := p3 + t4;
    var t2 := p2 + t3;
    assert r == p1 + t2;
    assert |t2| > 0 ==> t2[0] in {"--overwrite", "--put-md5", "--exclude-path"};
    assert |t3| > 0 ==> t3[0] in {"--put-md5", "--exclude-path"};
    assert |t4| > 0 ==> t4[0] == "--exclude-path";
    var a1 := if |r| > 0 && r[0] == "--recursive" then r[1..] else r;
    assert a1 == t2;
    var a2 := if |a1| >= 2 && a1[0] == "--overwrite" && a1[1] == "false" then a1[2..] else a1;
    assert a2 == t3;
    var a3 := if |a2| > 0 && a2[0] == "--put-md5" then a2[1..] else a2;
    assert a3 == t4;
  }

  // --------------------------------------------------------- job records

  /** A progress figure as the tool prints it, `<whole>.<fraction>`; the
      source converts it with `float()`, the model keeps both digit runs. */
  datatype Percent = Percent(whole: string, fraction: string)

  /** `float(0)`, the initial progress. */
  const ZeroPercent: Percent := Percent("0", "0")

  /** `AzJobInfo`, also used for the summary module's `AzCopyJobInfo`. */
  datatype JobInfo = JobInfo(
    percentComplete: Percent,
    errorMsg: string,
    finalJobStatusMsg: string,
    numberOfFileTransfers: int,
    numberOfFolderPropertyTransfers: int,
    totalNumberOfTransfers: int,
    numberOfTransfersCompleted: int,
    numberOfTransfersFailed: int,
    numberOfTransfersSkipped: int,
    totalBytesTransferred: int,
    completed: bool)

  /** `AzJobInfo()` with every argument defaulted. */
  function FreshJobInfo(): (j: JobInfo)
    ensures j.percentComplete == ZeroPercent && j.errorMsg == "" && j.finalJobStatusMsg == ""
    ensures j.numberOfFileTransfers == j.numberOfFolderPropertyTransfers == j.totalNumberOfTransfers == 0
    ensures j.numberOfTransfersCompleted == j.numberOfTransfersFailed == j.numberOfTransfersSkipped == 0
    ensures j.totalBytesTransferred == 0 && !j.completed
  {
    JobInfo(ZeroPercent, "", "", 0, 0, 0, 0, 0, 0, 0, false)
  }

  /** The sync record the summary module fills. Its class is not part of
      this model; the ten counters follow the sync labels and the other
      fields mirror `AzJobInfo`. */
  datatype SyncJobInfo = SyncJobInfo(
    percentComplete: Percent,
    errorMsg: string,
    finalJobStatusMsg: string,
    filesScannedAtSource: int,
    filesScannedAtDestination: int,
    numberOfCopyTransfersForFiles: int,
    numberOfCopyTransfersForFolderProperties: int,
    totalNumberOfCopyTransfers: int,
    numberOfCopyTransfersCompleted: int,
    numberOfCopyTransfersFailed: int,
    numberOfDeletionsAtDestination: int,
    totalNumberOfBytesTransferred: int,
    totalNumberOfBytesEnumerated: int,
    completed: bool)
}

=== FILE: wrappers.dfy ===
/** The datatypes standing in for Python's `None` results and raised
    exceptions. */
module Wrappers {

  /** An optional value: `None` where the source has no value to give. */
  datatype Option<+T> = None | Some(value: T)

  /** A normal return (`Success`) or a raised exception (`Failure`). */
  datatype Result<+R, +E> = Success(value: R) | Failure(error: E)
}
